=== FILE: README.md ===
# Gestor de turnos — a Dafny model of the task store

This project models the client-side core of *gestor de turnos*, a multi-tenant
shift checklist. Organizations (tenants) hold users with one of three roles
(super-admin, admin, analyst). Admins give checklist tasks to analysts in three
ways: one at a time, one per day over a date range, or from a reusable
template. Analysts tick tasks off and annotate them.

The model follows the program's data context, which is one store of four raw
lists shared by every tenant:

- **Store and views.** The store holds organizations, users, tasks and
  templates, plus the display settings and the logged-in user (`DataStore`).
  The tenant views are a pure function of the raw store and that user
  (`TenantViews`).
- **Ids and task creation.** Sequential task ids, zero-padded to at least
  four digits, are computed against the whole list (`Ids`). Single, date-range and template batches are
  numbered against the list as it was before the batch and put in front of it
  (`Scheduler`, `TaskOps`).
- **Task life cycle.** Update, delete, status toggle and notes select tasks
  by id only (`TaskOps`).
- **Directory.** The organization, user and template mutators (`Directory`).
- **Other modules.** The theme rules (`Theme`) and the CSV export rows
  (`Csv`).

Around the store it models:

- login, logout and the session restore (`Auth`);
- the role-based routing (`Routes`);
- the admin panel's form helpers (`AdminForms`);
- the analyst's checklist: its filter, progress and order (`Checklist`);
- the seed data and storage keys (`Seed`);
- the enums and records (`Types`).

Generic sequence facts are in `Seqs`. Decimal text, zero padding, `parseInt`,
ISO date text and the `date + "T" + time` deadline are in `Text`.

Calendar days are integer day numbers (day 0 is 1970-01-01).
`Text.DateText` renders a day as `YYYY-MM-DD` with the proleptic Gregorian
calendar. The batch expansions in `Scheduler` take that rendering as a
parameter `dateText`, and the store operations in `TaskOps` pass
`Text.DateText`. Clock readings (`now`, `today`, the millisecond counters
behind `org_…`/`u_…` ids) and random template ids are parameters.

Points where the code behaves differently from what one might expect:

- A super-admin's user view is the full raw user list
  (contexts/DataContext.tsx line 120). It is not empty.
- `assignTemplateToUser` looks the template up in the unfiltered list.
- Update, delete and toggle do not check the caller's tenant.
- `toggleTaskStatus` ignores the `notes` argument its declared type allows.

## Model

| member | source | states |
|---|---|---|
| Types.AllRoles | types.ts:1-5 | There are exactly three roles, with distinct names. |
| Types.AllPriorities | types.ts:7-12 | There are exactly four priorities, with distinct names. |
| Types.AllStatuses | types.ts:14-17 | There are exactly two statuses, PENDING and COMPLETED, with distinct names. |
| Types.FlipInvolution | types.ts:14-17 | Flipping the status is a total involution. |
| Text.Decimal | contexts/DataContext.tsx:147 | `String(n)` is a non-empty text of decimal digits, with no leading zero unless n is 0. |
| Text.PadStart | contexts/DataContext.tsx:147 | Padding gives max(width, length) characters: the filler, then the whole text, never truncated. |
| Text.ParseLeadingNat | contexts/DataContext.tsx:144 | `parseInt` gives NaN exactly when the text does not start with a digit; a text of digits reads as its value. |
| Text.ParseIgnoresTail | contexts/DataContext.tsx:144 | Whatever follows the leading digits is ignored: digits followed by a non-digit read as the digits alone. |
| Text.DecimalRoundTrip | contexts/DataContext.tsx:144-147 | Reading back the decimal text of `n` (the `String(n)` of an id) gives `n`. |
| Text.PaddedDecimalParses | contexts/DataContext.tsx:144-147 | Left-padding a decimal text with zeros does not change the number `parseInt` reads from it. |
| Text.DateText | contexts/DataContext.tsx:211 | A day's date text has at least ten characters and no 'T', so it is exactly what is left of the split at 'T'. |
| Text.CivilDateSamples | contexts/DataContext.tsx:211 | The calendar conversion is the proleptic Gregorian one: day 0 is 1970-01-01, day 19723 is 2024-01-01 and day 19725 is 2024-01-03. |
| Text.YearTextSamples | contexts/DataContext.tsx:211 | Years inside 0..9999 are written with four digits, as 1970 and 2024 show. |
| Text.FieldTextSamples | contexts/DataContext.tsx:211 | Months and days are written with two digits, zero-padded: 1 is "01", 3 is "03". |
| Text.Stamp | contexts/DataContext.tsx:212 | The deadline text is the date, one 'T', then the time. |
| Text.SplitAtT | pages/AdminPanel.tsx:124 | With no 'T' the date part is the whole text and the time is missing; otherwise the date part is the text before the first 'T' and the time part the text after it up to the next 'T' or the end. Neither part holds a 'T'. |
| Text.SplitStamp | pages/AdminPanel.tsx:79-124 | Splitting a composed `date + "T" + time` gives the date and time back, when neither contains a 'T'. |
| Text.StampSplit | pages/AdminPanel.tsx:79-124 | A deadline with exactly one 'T' is recomposed from its two split parts. |
| Ids.MaxId | contexts/DataContext.tsx:144-145 | The result bounds every id that parses as a number, and is 0 or the value of one such id. |
| Ids.IdText | contexts/DataContext.tsx:147 | The padded id has at least four characters, keeps the full decimal text (never truncated), and parses back to the number. |
| Ids.NextId | contexts/DataContext.tsx:143-148 | The id parses to max + 1 + offset, has at least four characters, and equals no existing id. |
| Ids.NextIdInjective | contexts/DataContext.tsx:143-148 | Different offsets of one batch give different ids. |
| Seed.MockOrgs | constants.ts:3-16 | The seed has two active tenants, "org1" and "org2". |
| Seed.StorageKeysDistinct | constants.ts:93-102 | Distinct storage keys have distinct names, and none is the session key. |
| Seed.SeedNextId | constants.ts:64-91 | The seed task ids are 0001 and 0002, so the first id issued over the seed is "0003". |
| Seed.SeedAssigneesInTenant | constants.ts:64-91 | Each seed task's assignee belongs to the task's own tenant. |
| Seed.SeedUsersBelongToTenants | constants.ts:18-62 | Every seed admin and analyst belongs to a seed tenant. The only super-admin carries "system", which is no tenant id. |
| Seed.SeedUsersDistinct | constants.ts:18-62 | Seed usernames are pairwise distinct, and so are seed user ids. |
| Seed.SeedTasksPending | constants.ts:64-91 | Seed tasks start pending, with no completion time. |
| DataStore.Load | contexts/DataContext.tsx:52-89 | The store at start-up. Each stored collection is adopted; an absent one falls back to the seed orgs, users or tasks, or to no templates. The theme is Christmas exactly when the stored text is "christmas", and each flag is true exactly when its text is "true". The API key is the stored one when it is not empty, else the environment's, else empty. Nobody is logged in. |
| DataStore.Persist | contexts/DataContext.tsx:92-100 | Every collection is written. An empty API key is not written, so the previous entry stays. |
| DataStore.LoadNothingSaved | contexts/DataContext.tsx:52-87 | With nothing saved, the store starts from the seed data with the default settings. |
| DataStore.LoadPersisted | contexts/DataContext.tsx:52-100 | Reloading what was persisted gives back the store, logged out, when its API key is not empty. |
| DataStore.ClearedApiKeyReturns | contexts/DataContext.tsx:85-100 | A cleared API key comes back after a reload. |
| TenantViews.Views | contexts/DataContext.tsx:118-139 | The three views by role. Nobody logged in sees nothing. The super-admin sees all orgs and all users, and no tasks or templates. Anyone else sees exactly their own tenant's users, tasks and templates, in order (subsequence, membership iff, multiset counts), and no orgs. |
| TenantViews.TenantIsolation | contexts/DataContext.tsx:124-128 | An admin or analyst never sees a task of another organization, and everything they see is their own organization's. |
| TenantViews.ViewsIgnoreSettings | contexts/DataContext.tsx:118-139 | The views do not depend on the settings. |
| Scheduler.Days | contexts/DataContext.tsx:203-210 | The day loop runs end − start + 1 times, or zero times when the end is before the start. |
| Scheduler.RangeTask | contexts/DataContext.tsx:214-221 | The task for one day carries the base fields. |
| Scheduler.ExpandRange | contexts/DataContext.tsx:202-224 | One task per day in increasing order. Each has the base fields, the org, the deadline `date + "T" + time`, PENDING status, `now` as createdAt, and an empty id. |
| Scheduler.ItemTaskFields | contexts/DataContext.tsx:319-332 | A template task has the item's title, description, category and priority, the chosen assignee, the caller's org, the deadline `date + "T" + timeOffset`, PENDING, no notes or completion time, an empty id and createdAt `now`. |
| Scheduler.TemplateBatchLength | contexts/DataContext.tsx:317-335 | N days of K items give K×N tasks. |
| Scheduler.TemplateBatchOrder | contexts/DataContext.tsx:317-335 | The order is day-major and item-minor: entry i is item i mod K on day start + i div K. |
| Scheduler.TemplateBatchPrefix | contexts/DataContext.tsx:317-335 | The batch over fewer days is a prefix of the batch over more days. |
| Scheduler.TemplateBatchAt | contexts/DataContext.tsx:317-335 | Item j of day q sits at the length of the first q days plus j, inside every longer batch. |
| Scheduler.TemplateBatchEntry | contexts/DataContext.tsx:317-335 | Entry i of an N-day batch is the task of item i mod K on day start + i div K. |
| Scheduler.ExpandDay | contexts/DataContext.tsx:319-332 | The inner loop gives one task per template item, in item order, all on the same day. |
| Scheduler.ExpandTemplate | contexts/DataContext.tsx:315-335 | The nested loops produce the day-by-day batch over the whole range: the K×N, day-major tasks that TemplateBatchOrder describes. |
| Scheduler.NumberBatch | contexts/DataContext.tsx:226-232 | Only the ids change. They run M+1, M+2, … in generation order from the pre-batch maximum M. Entry i gets exactly the id text `NextId(prev, i)`. |
| Scheduler.NumberedFresh | contexts/DataContext.tsx:226-232 | The new ids parse to M+1, M+2, … and repeat neither within the batch nor against the list. |
| TaskOps.NewTask | contexts/DataContext.tsx:185-191 | The new record carries the base fields, the given id, org, deadline and creation time, and is PENDING. |
| TaskOps.AddTask | contexts/DataContext.tsx:183-193 | Prepends exactly one PENDING task. It has the caller's org, the base fields, createdAt `now`, and the id `NextId` gives for the whole list, so it parses to max + 1 and is new to the list. Nothing else changes; without a user, nothing changes at all. |
| TaskOps.AddTaskShowsInTenant | contexts/DataContext.tsx:183-193 | The new task heads its own tenant's view. Every other tenant's view is unchanged. |
| TaskOps.PrependBatch | contexts/DataContext.tsx:226-232 | The numbered batch goes in front. The old list stays an unchanged suffix. Entry i of the batch gets exactly the id text `NextId(prev, i)`. |
| TaskOps.CreateTaskRange | contexts/DataContext.tsx:195-233 | Without a user, nothing changes. Otherwise it prepends one freshly numbered PENDING task per day, with the base fields, the caller's org and the day's deadline. Task i gets exactly the id text `NextId` gives for the old list and offset i. |
| TaskOps.AssignTemplateToUser | contexts/DataContext.tsx:305-343 | Without a user or a template with that id (found in the raw list), nothing changes. Otherwise it prepends the day-major template batch of K×N tasks, freshly numbered. Task i gets exactly the id text `NextId` gives for the old list and offset i. |
| TaskOps.BatchInvisibleElsewhere | contexts/DataContext.tsx:226-232 | A batch of one tenant leaves every other tenant's task view unchanged. |
| TaskOps.UpdateTask | contexts/DataContext.tsx:235-237 | Only the records with the matching id are replaced, each by the given task. |
| TaskOps.UpdateRevert | contexts/DataContext.tsx:235-237 | Writing back a task's old record restores the list. |
| TaskOps.UpdateIdempotent | contexts/DataContext.tsx:235-237 | Updating twice with the same task is updating once. |
| TaskOps.DeleteTask | contexts/DataContext.tsx:239-241 | Removes exactly the records with that id, and keeps the rest in order. |
| TaskOps.AddThenDelete | contexts/DataContext.tsx:239-241 | Deleting a task just added gives the list back. |
| TaskOps.ToggleOne | contexts/DataContext.tsx:244-253 | Flips the status. It sets completedAt to `now` when completing and clears it when reopening; no other field changes. |
| TaskOps.ToggleTwiceRestores | contexts/DataContext.tsx:244-253 | Two toggles from PENDING restore the task exactly. |
| TaskOps.ToggleTwiceFromCompleted | contexts/DataContext.tsx:244-253 | Two toggles from COMPLETED keep it completed, restamped with the second clock reading. |
| TaskOps.ToggleTaskStatus | contexts/DataContext.tsx:243-255 | Toggles exactly the tasks with that id. No other task changes. |
| TaskOps.ToggleStoreTwice | contexts/DataContext.tsx:243-255 | Toggling the list twice restores it when the toggled tasks were pending. |
| TaskOps.UpdateTaskNotes | contexts/DataContext.tsx:257-259 | Changes only `notes`, and only on the tasks with that id. |
| TaskOps.NotesLastWriteWins | contexts/DataContext.tsx:257-259 | Of two note edits, the last one wins. |
| TaskOps.NotesToggleCommute | contexts/DataContext.tsx:243-259 | Note edits and status toggles commute. |
| Directory.OrgId | contexts/DataContext.tsx:160 | A new organization id starts with "org_". |
| Directory.UserId | contexts/DataContext.tsx:169 | A new user id starts with "u_". |
| Directory.AddOrganization | contexts/DataContext.tsx:157-179 | For anyone but the super-admin, nothing changes. Otherwise it appends an active org and an ADMIN of that org with the given credentials; nothing else changes. |
| Directory.NewTenantStartsEmpty | contexts/DataContext.tsx:157-179 | A new tenant's admin sees only themselves, and no tasks, templates or orgs. |
| Directory.AddUser | contexts/DataContext.tsx:261-272 | Appends one user bound to the caller's org with the given fields. Without a user, nothing changes. |
| Directory.AddUserShowsInTenant | contexts/DataContext.tsx:261-272 | The new user is appended to the caller's tenant view. Every other tenant's view is unchanged. |
| Directory.ResetUserPassword | contexts/DataContext.tsx:274-276 | Changes only the password, and only of the users with that id. |
| Directory.ResetLastWriteWins | contexts/DataContext.tsx:274-276 | Of two resets, the last password wins. |
| Directory.FindTemplate | contexts/DataContext.tsx:307 | Finds the first template with that id, and None exactly when no template has it. |
| Directory.SaveTemplate | contexts/DataContext.tsx:288-299 | An upsert by id. Every template with that id is replaced by the template stamped with the caller's org, and templates with other ids are unchanged. A new id is appended, so the count grows only then. Afterwards the template is found. |
| Directory.SaveTemplateIdempotent | contexts/DataContext.tsx:288-299 | Saving the same template twice is saving it once. |
| Directory.DeleteTemplate | contexts/DataContext.tsx:301-303 | Removes exactly the templates with that id, and keeps the rest in order. |
| Directory.DeleteThenFind | contexts/DataContext.tsx:301-303 | After a delete, no template with that id is found. |
| Theme.ThemeSafety | contexts/DataContext.tsx:109-113 | Afterwards Christmas mode with the switch off never holds. A safe state is left alone, and only the mode can change. |
| Theme.ToggleThemeMode | contexts/DataContext.tsx:278-281 | A no-op when the switch is off and the mode is normal; otherwise the mode flips. |
| Theme.SetChristmasEnabled | contexts/DataContext.tsx:284 | Sets the switch and nothing else. |
| Theme.ToggleDarkMode | contexts/DataContext.tsx:283 | Flips dark mode and nothing else. |
| Theme.ToggleKeepsSafe | contexts/DataContext.tsx:278-281 | The toggle never leaves a safe state. |
| Theme.ToggleInvolution | contexts/DataContext.tsx:278-281 | With the switch on, toggling twice restores the mode. |
| Theme.DisableReverts | contexts/DataContext.tsx:109-113 | Turning the switch off and applying the safety effect always ends in normal mode. |
| Theme.SafetyAfterEveryChange | contexts/DataContext.tsx:109-113 | Every change followed by the safety effect ends safe. |
| Theme.DarkModeInvolution | contexts/DataContext.tsx:283 | Dark mode toggles back, independently of the theme. |
| Csv.Escape | contexts/DataContext.tsx:352 | Escaping never shortens a text, and lengthens every text that holds a quote. |
| Csv.EscapeWithoutQuotes | contexts/DataContext.tsx:352 | Text without quotes is written as it is. |
| Csv.EscapeRoundTrip | contexts/DataContext.tsx:352 | Reading back the doubled-quote escape gives the original text. |
| Csv.Quote | contexts/DataContext.tsx:352 | A quoted cell starts and ends with a quote around the escaped text. |
| Csv.QuoteRoundTrip | contexts/DataContext.tsx:352-359 | Every quoted cell reads back as the text it was made from. |
| Csv.FindUser | contexts/DataContext.tsx:349 | Finds the first visible user with that id, or None exactly when no visible user has it. |
| Csv.AssigneeName | contexts/DataContext.tsx:349-356 | The assignee's full name, or "Desconocido" when the assignee is not visible. |
| Csv.RowCells | contexts/DataContext.tsx:350-360 | Every row has nine cells. The id, priority, status, deadline and completion time are written plainly. |
| Csv.CsvRowReadsBack | contexts/DataContext.tsx:348-361 | The title, category, assignee-name and notes cells read back as the task's texts, whatever characters they hold. |
| Csv.SplitJoin | contexts/DataContext.tsx:363 | Splitting joined cells gives them back when no cell holds the separator. |
| Csv.Rows | contexts/DataContext.tsx:348-363 | One line per task, in order. |
| Csv.CsvLines | contexts/DataContext.tsx:345-363 | The header line, then exactly the rows of the visible tasks: one line per task, in view order. |
| Csv.CsvLineCount | contexts/DataContext.tsx:363 | Without line breaks in the texts, the export has exactly 1 + (number of visible tasks) lines. |
| Csv.HeaderOneLine | contexts/DataContext.tsx:347 | The header is a single line. |
| Csv.HeaderOnlyWithoutTasks | contexts/DataContext.tsx:346-348 | Nobody logged in, or the super-admin, exports the header alone. |
| Auth.LoginUsers | contexts/AuthContext.tsx:20-21 | The login checks the stored full user list, or the seed users when nothing is stored. |
| Auth.FindCredential | contexts/AuthContext.tsx:23 | Finds the first user matching both username and password, or None exactly when nobody matches. |
| Auth.Login | contexts/AuthContext.tsx:18-31 | True iff some user matches. On success the first match becomes the current user and the session. On failure nothing changes. |
| Auth.LoginFailureIndistinguishable | contexts/AuthContext.tsx:29-30 | An unknown username and a wrong password give the same answer and state. |
| Auth.Logout | contexts/AuthContext.tsx:33-36 | Nobody is logged in afterwards, and the session is removed. |
| Auth.RestoreOnMount | contexts/AuthContext.tsx:39-44 | The stored session is adopted only when nobody is logged in. |
| Auth.LoginSurvivesReload | contexts/AuthContext.tsx:23-44 | After a login, a reload and the restore give back the same user. |
| Auth.LoginThenLogout | contexts/AuthContext.tsx:18-36 | Logging in and then out leaves the store logged out and otherwise unchanged. |
| Auth.LoginAfterAddOrganization | contexts/AuthContext.tsx:18-31 | The admin created with a new org can log in at once. With a fresh username, the login is theirs. |
| Auth.LoginAfterReset | contexts/AuthContext.tsx:18-31 | After a password reset, the user logs in with the new password. |
| Auth.SeedSuperAdminLogin | constants.ts:20-27 | With nothing stored, "superadmin"/"master123" logs in as the seed super-admin. |
| Routes.DefaultRoute | App.tsx:35-42 | No user goes to "/login", SUPER_ADMIN to "/superadmin", ADMIN to "/admin", and anyone else to "/checklist". |
| Routes.Guard | App.tsx:13-30 | No user is redirected to "/login". An allowed role is shown the page. Any other role is redirected to its default route. |
| Routes.Route | App.tsx:44-73 | A location is compared in lower case without trailing slashes. "/login" shows the login page to nobody logged in and sends a user home. A protected path is guarded. Unknown paths go to "/login". |
| Routes.RoutePathCanonical | App.tsx:44-71 | The compared form is lower case without a trailing slash, and such a path is compared as it is. |
| Routes.RouteIgnoresCaseAndSlash | App.tsx:44-71 | A trailing slash or a change of letter case does not change where a path leads ("/Admin/" leads where "/admin" does). |
| Routes.LoginRoute | App.tsx:46 | "/login" shows the login page to nobody logged in and sends a user home. |
| Routes.RedirectTargets | App.tsx:13-73 | Every redirect goes to "/login" or to the user's home. |
| Routes.HomeAdmitsRole | App.tsx:35-64 | Every role's default route admits that role. |
| Routes.RoutingSettles | App.tsx:44-73 | A decision is reached within two redirects: there are no loops. |
| Routes.AnalystOnlyPages | App.tsx:60-70 | Any path that compares as "/checklist" or "/report" is shown to analysts only. |
| Routes.ProtectedDecision | App.tsx:13-30 | A protected page is shown iff the table admits the role; otherwise the user is sent to their default route. |
| AdminForms.Shown | pages/AdminPanel.tsx:79 | A present value is written as itself in a template literal, and a missing one as the text `undefined`, so a deadline without a time is submitted as `<date>Tundefined`. |
| AdminForms.ResetForm | pages/AdminPanel.tsx:108-120 | The reset form has empty title, description, category, assignee and end date, MEDIUM priority, today at 10:00, and is not a range. |
| AdminForms.OpenTaskModal | pages/AdminPanel.tsx:122-142 | An opened task fills the form: title, description, category, priority and assignee, with its deadline split at 'T'. Without a task, the form is the reset form. |
| AdminForms.HandleTaskSubmit | pages/AdminPanel.tsx:62-106 | A range is created iff the range box is ticked, the task is new and there is an end date. Otherwise an edit updates and a new task is added. An edit writes the form's title, description, category, priority, assignee and deadline, and keeps id, org, createdAt, status, notes and completedAt. A new task or range is built from the form's fields with no notes and no completion time. |
| AdminForms.EditRoundTrip | pages/AdminPanel.tsx:79-136 | Opening a task and submitting the form unchanged writes the task back exactly. |
| AdminForms.OpenTemplateModal | pages/AdminPanel.tsx:146-156 | An edited template's name and items are loaded. A new template starts with an empty name and one item: empty title and description, "General", MEDIUM, "09:00". |
| AdminForms.AddItem | pages/AdminPanel.tsx:158-163 | Appends exactly one default item ("General", MEDIUM, "09:00") and keeps the existing items. |
| AdminForms.ApplyEdit | pages/AdminPanel.tsx:167 | Only the named field of the item changes. |
| AdminForms.UpdateItem | pages/AdminPanel.tsx:165-169 | Only the item at the index changes. The length is unchanged. |
| AdminForms.UpdateUndo | pages/AdminPanel.tsx:165-169 | Writing back the old field value restores the list. |
| AdminForms.RemoveItem | pages/AdminPanel.tsx:171-174 | Removes exactly the item at the index and keeps the order. An out-of-range index changes nothing. |
| AdminForms.RemoveAfterAdd | pages/AdminPanel.tsx:158-174 | Removing the item just added gives the list back. |
| AdminForms.TemplateId | pages/AdminPanel.tsx:179 | An edited template keeps its id; a new one takes the fresh id. |
| AdminForms.TemplateSubmitEffect | pages/AdminPanel.tsx:176-185 | Saving an edited template replaces it, leaving the count unchanged. Saving a new one appends it. |
| AdminForms.TaskAssignees | pages/AdminPanel.tsx:444 | Task assignee choices are the users other than admins and super-admins, in order. |
| AdminForms.TemplateAssignees | pages/AdminPanel.tsx:597 | Template assignee choices are the users other than admins, in order. |
| AdminForms.AssigneeChoices | pages/AdminPanel.tsx:444 | Task assignees are all analysts. A template may also go to a super-admin, and to no one else beyond the task assignees. |
| Checklist.MyTasks | pages/AnalystPanel.tsx:15-17 | Exactly the visible tasks assigned to the user, in order. Nobody logged in has none. |
| Checklist.CompletedCount | pages/AnalystPanel.tsx:19 | Exactly the length of the list filtered to its completed tasks; so between 0 and the number of tasks, equal to it iff all are completed, and 0 iff none is. |
| Checklist.Progress | pages/AnalystPanel.tsx:20 | The whole percentage nearest to done/total, a half rounded up. It is 0 for an empty list and within [0,100]. |
| Checklist.ProgressEnds | pages/AnalystPanel.tsx:20 | Progress is 0 with nothing done and 100 with everything done. |
| Checklist.ProgressFull | pages/AnalystPanel.tsx:20 | Progress reads 100 iff at most half a percent is left. |
| Checklist.NearlyDoneShowsFull | pages/AnalystPanel.tsx:20 | 199 done of 200 already reads 100. |
| Checklist.ProgressMonotone | pages/AnalystPanel.tsx:20 | Progress never falls as more is done. |
| Checklist.ChecklistProgress | pages/AnalystPanel.tsx:15-20 | Progress is 0 with no tasks or none completed, 100 with all completed, and never above 100. |
| Checklist.ChecklistShowsShare | pages/AnalystPanel.tsx:15-20 | The bar shows `Progress(done, total)`, where done is the number of the user's tasks left after filtering to the completed ones and total is the number of the user's tasks. |
| Checklist.Rank | pages/AnalystPanel.tsx:25-31 | CRITICAL ranks 0, HIGH 1, MEDIUM 2 and LOW 3. |
| Checklist.RankInjective | pages/AnalystPanel.tsx:25-31 | Distinct priorities have distinct ranks. |
| Checklist.Insert | pages/AnalystPanel.tsx:24-36 | Insertion adds exactly the one task: one longer, the same tasks plus it. |
| Checklist.InsertTied | pages/AnalystPanel.tsx:24-36 | Insertion passes over no task tied with the inserted one, so it comes first among them. |
| Checklist.InsertSorted | pages/AnalystPanel.tsx:24-36 | Inserting into a sorted list keeps it sorted by rank, then deadline. |
| Checklist.SortTasks | pages/AnalystPanel.tsx:24-36 | The result is a permutation of the tasks. It is ordered by rank, and by ascending deadline within equal rank. |
| Checklist.SortStable | pages/AnalystPanel.tsx:24-36 | The sort is stable: tasks the comparator ties (same rank, same deadline instant) keep their order. |
| Checklist.SortKeepsSorted | pages/AnalystPanel.tsx:24-36 | A list already in order is left exactly as it is. |
| Checklist.SortMap | pages/AnalystPanel.tsx:22-36 | Sorting commutes with any change that keeps priority and deadline. |
| Checklist.ToggleVisibleTasks | contexts/DataContext.tsx:243-255 | A toggle changes the visible task list in place: the view after is the view before with the toggle applied to each task. |
| Checklist.ToggleMyTasks | pages/AnalystPanel.tsx:15-17 | A toggle changes a user's own task list in place. |
| Checklist.ToggleKeepsPositions | pages/AnalystPanel.tsx:22-36 | Ticking a task moves nothing: the sorted checklist after a toggle is the one before with that task toggled in place. |

## Left out

- Storage is a record of decoded entries. JSON text, corrupt JSON (which throws in the source) and the writes' effect timing are not modelled.
- A stored theme text other than "christmas" is read as normal. The source would keep an arbitrary string; only 'normal' and 'christmas' are representable here.
- The DOM dark-mode class, the CSV byte-order mark, Blob, file name and download, and all React rendering are presentation and are left out.
- Clocks and random sources are parameters: `new Date().toISOString()`, `Date.now()` and `Math.random()`.
- Scheduler.ExpandRange: each pushed task in the source reads the clock anew. The model uses one `now` for the whole batch.
- Scheduler.ExpandTemplate: takes one `now` for the whole batch, for the same reason.
- Directory.AddOrganization: the two `Date.now()` readings behind the org and user ids are two independent parameters.
- Dates are day numbers. Parsing the date input, and the local-time midnight `setHours(0,0,0,0)` followed by a UTC `toISOString()`, are not modelled; they are timezone-dependent. The day's text is `Text.DateText` of the day number.
- Text.ParseLeadingNat: reads leading decimal digits only. `parseInt`'s leading whitespace, signs and radix prefixes are not modelled.
- Checklist.Progress: exact rational rounding. Floating-point `Math.round(c / n * 100)` can differ from it at exact halves.
- Checklist.Before: the deadline key is an abstract function standing for `new Date(deadline).getTime()`. NaN from an unparsable deadline is not modelled.
- Checklist.Rank: the fallback rank 4 for an unknown priority is not representable, because `Priority` is a closed datatype.
- Ids.NextId: ids are unbounded integers. The source computes with JavaScript numbers, so from 2^53 the sum max + 1 + offset rounds and may repeat an existing id, and from 10^21 `String` writes exponent notation; "equals no existing id" holds only below 2^53.
- Routes.Route: matching is modelled as ASCII lower-casing and dropping trailing slashes. Percent-decoding of the location and the hash router's handling of the URL are not modelled.
- AdminForms.UpdateItem: requires an index inside the list. The source would grow a sparse array for an index past the end.
- The `setApiKey` and `setCurrentUser` plain setters, the report and presentation components, the external text-generation service, the login and super-admin pages and the layout are out of scope.

=== FILE: adminpanel.dfy ===
/** The pure helpers of the admin panel: how the task form is filled when a
    task is opened for editing, what a submit of the task form does, the
    edits of the template item list, the id a saved template gets, and who
    may be chosen as an assignee. */
module AdminForms {
  import opened Types
  import opened Seqs
  import opened Text
  import opened DataStore
  import opened Directory

  /** The task form. `deadlineTime` is `None` when the opened deadline has
      no 'T' (the form then holds `undefined`). */
  datatype TaskForm = TaskForm(
    title: string,
    description: string,
    category: string,
    priority: Priority,
    assignedTo: string,
    deadlineDate: string,
    deadlineTime: Option<string>,
    isRange: bool,
    endDate: string)

  /** The store call a submit of the task form makes. */
  datatype Submit =
    | CreateRange(base: TaskBase, time: string, startDate: string, endDate: string)
    | UpdateExisting(task: Task)
    | AddNew(base: TaskBase, deadline: string)

  /** A value as a template literal writes it: `undefined` when missing. */
  function Shown(o: Option<string>): (r: string)
    ensures o.Some? ==> r == o.value
    ensures o.None? ==> r == "undefined"
  {
    if o.Some? then o.value else "undefined"
  }

  /** `resetTaskForm`: empty texts, medium priority, today at 10:00. */
  function ResetForm(today: string): (f: TaskForm)
    ensures f.priority == Medium && f.deadlineDate == today && f.deadlineTime == Some("10:00")
    ensures !f.isRange && f.endDate == "" && f.title == "" && f.assignedTo == ""
    ensures f.description == "" && f.category == ""
  {
    TaskForm("", "", "", Medium, "", today, Some("10:00"), false, "")
  }

  /** `openTaskModal`: an opened task fills the form, its deadline split at
      the 'T'; no task gives the reset form. */
  function OpenTaskModal(task: Option<Task>, today: string): (f: TaskForm)
    ensures task.None? ==> f == ResetForm(today)
    ensures task.Some? ==> && f.title == task.value.title && f.description == task.value.description
                           && f.category == task.value.category && f.priority == task.value.priority
                           && f.assignedTo == task.value.assignedTo
                           && (f.deadlineDate, f.deadlineTime) == SplitAtT(task.value.deadline)
                           && !f.isRange && f.endDate == ""
  {
    match task
    case None => ResetForm(today)
    case Some(t) =>
      var (date, time) := SplitAtT(t.deadline);
      TaskForm(t.title, t.description, t.category, t.priority, t.assignedTo, date, time, false, "")
  }

  /** An edit writes the form's fields into the task and keeps every field
      the form does not hold. */
  predicate KeepsUnformed(edited: Task, original: Task) {
    && edited.id == original.id && edited.organizationId == original.organizationId
    && edited.createdAt == original.createdAt && edited.status == original.status
    && edited.notes == original.notes && edited.completedAt == original.completedAt
  }

  /** `handleTaskSubmit`. A range is created only for a new task with the
      range box ticked and an end date; otherwise an opened task is updated
      and a new one is added. */
  function HandleTaskSubmit(form: TaskForm, editing: Option<Task>): (r: Submit)
    ensures r.CreateRange? <==> form.isRange && editing.None? && form.endDate != ""
    ensures r.UpdateExisting? <==> editing.Some?
    ensures r.CreateRange? ==> r.startDate == form.deadlineDate && r.endDate == form.endDate
                               && r.time == Shown(form.deadlineTime)
    ensures r.UpdateExisting? ==> && KeepsUnformed(r.task, editing.value)
                                  && r.task.title == form.title && r.task.description == form.description
                                  && r.task.category == form.category && r.task.priority == form.priority
                                  && r.task.assignedTo == form.assignedTo
                                  && r.task.deadline == Stamp(form.deadlineDate, Shown(form.deadlineTime))
    ensures r.AddNew? ==> r.deadline == Stamp(form.deadlineDate, Shown(form.deadlineTime))
    ensures (r.AddNew? || r.CreateRange?) ==>
              r.base == TaskBase(form.title, form.description, form.category, form.priority, form.assignedTo, None, None)
  {
    var base := TaskBase(form.title, form.description, form.category, form.priority, form.assignedTo, None, None);
    if form.isRange && editing.None? && form.endDate != "" then
      CreateRange(base, Shown(form.deadlineTime), form.deadlineDate, form.endDate)
    else
      var deadline := Stamp(form.deadlineDate, Shown(form.deadlineTime));
      match editing
      case Some(t) =>
        UpdateExisting(t.(title := form.title, description := form.description, category := form.category,
                          priority := form.priority, assignedTo := form.assignedTo, deadline := deadline))
      case None => AddNew(base, deadline)
  }

  /** Opening a task and submitting the form unchanged writes the task back
      as it was, when its deadline is a date and a time joined by one 'T'. */
  lemma {:induction false} EditRoundTrip(t: Task, date: string, time: string, today: string)
    requires t.deadline == Stamp(date, time) && 'T' !in date && 'T' !in time
    ensures HandleTaskSubmit(OpenTaskModal(Some(t), today), Some(t)) == UpdateExisting(t)
  {
    SplitStamp(date, time);
  }

  // ---------------------------------------------------------------------
  // Template items.

  const DefaultItem: TemplateItem := TemplateItem("", "", "General", Medium, "09:00")

  /** Adding an item to the template form: a default item goes at the end. */
  function AddItem(items: seq<TemplateItem>): (r: seq<TemplateItem>)
    ensures |r| == |items| + 1 && r[..|items|] == items
    ensures r[|items|].category == "General" && r[|items|].priority == Medium
    ensures r[|items|].timeOffset == "09:00" && r[|items|].title == "" && r[|items|].description == ""
  {
    items + [DefaultItem]
  }

  /** `openTemplateModal`: an opened template's name and a copy of its
      items; a new template starts with one default item. */
  function OpenTemplateModal(template: Option<TaskTemplate>): (r: (string, seq<TemplateItem>))
    ensures template.Some? ==> r == (template.value.name, template.value.items)
    ensures template.None? ==> r.0 == "" && r.1 == [TemplateItem("", "", "General", Medium, "09:00")]
  {
    if template.Some? then (template.value.name, template.value.items)
    else ("", AddItem([]))
  }

  /** One field edit of `updateTemplateItem`. */
  datatype ItemEdit =
    | SetTitle(text: string)
    | SetDescription(text: string)
    | SetCategory(text: string)
    | SetPriority(priority: Priority)
    | SetTimeOffset(text: string)

  function ApplyEdit(item: TemplateItem, e: ItemEdit): (r: TemplateItem)
    ensures e.SetTitle? ==> r == item.(title := e.text)
    ensures e.SetDescription? ==> r == item.(description := e.text)
    ensures e.SetCategory? ==> r == item.(category := e.text)
    ensures e.SetPriority? ==> r == item.(priority := e.priority)
    ensures e.SetTimeOffset? ==> r == item.(timeOffset := e.text)
  {
    match e
    case SetTitle(v) => item.(title := v)
    case SetDescription(v) => item.(description := v)
    case SetCategory(v) => item.(category := v)
    case SetPriority(p) => item.(priority := p)
    case SetTimeOffset(v) => item.(timeOffset := v)
  }

  /** The edit that puts back the field `e` changes, as it was in `item`. */
  function Undo(item: TemplateItem, e: ItemEdit): ItemEdit {
    match e
    case SetTitle(_) => SetTitle(item.title)
    case SetDescription(_) => SetDescription(item.description)
    case SetCategory(_) => SetCategory(item.category)
    case SetPriority(_) => SetPriority(item.priority)
    case SetTimeOffset(_) => SetTimeOffset(item.timeOffset)
  }

  /** Editing one field of the template item at `index`, an index inside
      the list. */
  function UpdateItem(items: seq<TemplateItem>, index: nat, e: ItemEdit): (r: seq<TemplateItem>)
    requires index < |items|
    ensures |r| == |items|
    ensures r[index] == ApplyEdit(items[index], e)
    ensures forall i :: 0 <= i < |items| && i != index ==> r[i] == items[i]
  {
    items[index := ApplyEdit(items[index], e)]
  }

  /** Undoing an edit restores the list. */
  lemma {:induction false} UpdateUndo(items: seq<TemplateItem>, index: nat, e: ItemEdit)
    requires index < |items|
    ensures UpdateItem(UpdateItem(items, index, e), index, Undo(items[index], e)) == items
  {
    var r := UpdateItem(UpdateItem(items, index, e), index, Undo(items[index], e));
    assert r[index] == items[index];
  }

  /** Removing the template item at `index` by keeping every other
      position; the positions are scanned from the back. */
  function RemoveItem(items: seq<TemplateItem>, index: int): (r: seq<TemplateItem>)
    ensures 0 <= index < |items| ==> r == items[..index] + items[index + 1..]
    ensures !(0 <= index < |items|) ==> r == items
  {
    if |items| == 0 then []
    else
      var last := |items| - 1;
      var front := items[..last];
      var rest := RemoveItem(front, index);
      if last == index then
        assert items[..index] == front && items[index + 1..] == [];
        rest
      else
        assert front + [items[last]] == items;
        if 0 <= index < last then
          assert items[..index] == front[..index];
          assert front[index + 1..] + [items[last]] == items[index + 1..];
          rest + [items[last]]
        else
          rest + [items[last]]
  }

  /** Removing the item just added gives the list back. */
  lemma {:induction false} RemoveAfterAdd(items: seq<TemplateItem>)
    ensures RemoveItem(AddItem(items), |items|) == items
  {
  }

  /** `handleTemplateSubmit`: an edited template keeps its id, a new one
      takes the fresh random id. */
  function TemplateId(editing: Option<TaskTemplate>, freshId: string): (id: string)
    ensures editing.Some? ==> id == editing.value.id
    ensures editing.None? ==> id == freshId
  {
    if editing.Some? then editing.value.id else freshId
  }

  /** Saving an edited template replaces it in place; saving a new one with
      an id no template has appends it. */
  lemma {:induction false} TemplateSubmitEffect(s: Store, editing: Option<TaskTemplate>, freshId: string,
                                                name: string, items: seq<TemplateItem>)
    requires s.currentUser.Some?
    requires editing.Some? ==> editing.value in s.templates
    requires editing.None? ==> forall t :: t in s.templates ==> t.id != freshId
    ensures var r := SaveTemplate(s, TemplateId(editing, freshId), name, items);
            |r.templates| == |s.templates| + (if editing.Some? then 0 else 1)
  {
    if editing.Some? {
      var k :| 0 <= k < |s.templates| && s.templates[k] == editing.value;
      assert FindTemplate(s.templates, editing.value.id).Some?;
    } else {
      assert FindTemplate(s.templates, freshId).None?;
    }
  }

  // ---------------------------------------------------------------------
  // Assignee choices.

  /** The users a task can be assigned to: no admin, no super-admin. */
  function TaskAssignees(users: seq<User>): (r: seq<User>)
    ensures Selects(r, users, (u: User) => u.role != Admin && u.role != SuperAdmin)
  {
    FilterSelects(users, (u: User) => u.role != Admin && u.role != SuperAdmin);
    Filter(users, (u: User) => u.role != Admin && u.role != SuperAdmin)
  }

  /** The users a template can be assigned to: no admin. */
  function TemplateAssignees(users: seq<User>): (r: seq<User>)
    ensures Selects(r, users, (u: User) => u.role != Admin)
  {
    FilterSelects(users, (u: User) => u.role != Admin);
    Filter(users, (u: User) => u.role != Admin)
  }

  /** Task assignees are analysts; a template may also be assigned to a
      super-admin, and to no one else beyond the task assignees. */
  lemma {:induction false} AssigneeChoices(users: seq<User>)
    ensures forall u :: u in TaskAssignees(users) ==> u.role == Analyst
    ensures forall u :: u in TemplateAssignees(users) && u !in TaskAssignees(users) ==> u.role == SuperAdmin
    ensures forall u :: u in TaskAssignees(users) ==> u in TemplateAssignees(users)
  {
  }
}

=== FILE: analystpanel.dfy ===
/** The analyst's checklist: the tasks assigned to the logged-in user, the
    share of them completed, and their order on screen (priority first, then
    deadline, never status, so that ticking a task does not move it). */
module Checklist {
  import opened Types
  import opened Seqs
  import opened DataStore
  import opened TenantViews
  import opened TaskOps
  import opened Scheduler

  /** The visible tasks assigned to the logged-in user, in list order.
      Nobody logged in has no task, since every task has an assignee. */
  function MyTasks(tasks: seq<Task>, user: Option<User>): (r: seq<Task>)
    ensures user.None? ==> r == []
    ensures user.Some? ==> Selects(r, tasks, (t: Task) => t.assignedTo == user.value.id)
  {
    if user.None? then []
    else
      FilterSelects(tasks, (t: Task) => t.assignedTo == user.value.id);
      Filter(tasks, (t: Task) => t.assignedTo == user.value.id)
  }

  /** The number of completed tasks: the length of the list filtered down
      to them. */
  function CompletedCount(ts: seq<Task>): (n: nat)
    ensures n <= |ts|
    ensures n == |Filter(ts, (t: Task) => t.status == Completed)|
    ensures n == |ts| <==> forall i :: 0 <= i < |ts| ==> ts[i].status == Completed
    ensures n == 0 <==> forall i :: 0 <= i < |ts| ==> ts[i].status != Completed
  {
    if |ts| == 0 then 0
    else
      var rest := CompletedCount(ts[1..]);
      assert forall i :: 1 <= i < |ts| ==> ts[1..][i - 1] == ts[i];
      (if ts[0].status == Completed then 1 else 0) + rest
  }

  /** The progress bar's percentage: the whole percentage nearest to the
      share done, a half rounded up, over exact fractions; 0 for an empty
      list. */
  function Progress(done: nat, total: nat): (p: nat)
    requires done <= total
    ensures total == 0 ==> p == 0
    ensures total > 0 ==> 2 * total * p <= 200 * done + total < 2 * total * (p + 1)
    ensures p <= 100
  {
    if total == 0 then 0
    else
      var a, b := 200 * done + total, 2 * total;
      var q := a / b;
      assert b * q <= a < b * q + b;
      assert b * (q + 1) == b * q + b;
      assert a < 101 * b;
      Cancel(q, 101, b);
      q
  }

  /** Cancelling a positive factor from a strict comparison. */
  lemma {:induction false} Cancel(a: int, b: int, t: nat)
    requires t > 0 && a * t < b * t
    ensures a < b
  {
    if b <= a {
      MulMonotone(b, a, t);
    }
  }

  /** The bar is empty with nothing done and full with everything done. */
  lemma {:induction false} ProgressEnds(total: nat)
    requires 0 < total
    ensures Progress(0, total) == 0
    ensures Progress(total, total) == 100
  {
    var p0, pt := Progress(0, total), Progress(total, total);
    assert 2 * total * p0 == (2 * p0) * total;
    Cancel(2 * p0, 2, total);
    assert 2 * total * (pt + 1) == (2 * pt + 2) * total;
    Cancel(201, 2 * pt + 2, total);
    assert 2 * total * pt == (2 * pt) * total;
    Cancel(2 * pt, 202, total);
  }

  /** The bar is full as soon as at most half a percent is left, so it can
      read 100 before everything is done (199 of 200, say). */
  lemma {:induction false} ProgressFull(done: nat, total: nat)
    requires done <= total
    ensures Progress(done, total) == 100 <==> 0 < total && 199 * total <= 200 * done
  {
    if total > 0 {
      var p := Progress(done, total);
      if p == 100 {
        assert 2 * total * (p + 1) == 202 * total;
      } else {
        assert p < 100;
        assert 2 * total * (p + 1) == (2 * p + 2) * total;
        MulMonotone(2 * p + 2, 200, total);
      }
    }
  }

  lemma {:induction false} NearlyDoneShowsFull()
    ensures Progress(199, 200) == 100
  {
    ProgressFull(199, 200);
  }

  /** The bar never falls as more is done. */
  lemma {:induction false} ProgressMonotone(d1: nat, d2: nat, total: nat)
    requires d1 <= d2 <= total
    ensures Progress(d1, total) <= Progress(d2, total)
  {
    if total > 0 {
      var p1, p2 := Progress(d1, total), Progress(d2, total);
      var b := 2 * total;
      var lo, hi := b * p1, b * (p2 + 1);
      assert lo <= 200 * d1 + total;
      assert 200 * d2 + total < hi;
      assert lo < hi;
      assert p1 * b == lo && (p2 + 1) * b == hi;
      Cancel(p1, p2 + 1, b);
    }
  }

  /** The progress shown for a user's checklist. */
  function ChecklistProgress(tasks: seq<Task>, user: Option<User>): (p: nat)
    ensures p <= 100
    ensures |MyTasks(tasks, user)| == 0 ==> p == 0
    ensures (|MyTasks(tasks, user)| > 0 && forall t :: t in MyTasks(tasks, user) ==> t.status == Completed) ==>
              p == 100
    ensures (forall t :: t in MyTasks(tasks, user) ==> t.status != Completed) ==> p == 0
  {
    var mine := MyTasks(tasks, user);
    if |mine| == 0 then 0
    else
      ProgressEnds(|mine|);
      Progress(CompletedCount(mine), |mine|)
  }

  /** The bar shows the share of the user's tasks that are completed: the
      completed ones counted by filtering, over all of them. */
  lemma ChecklistShowsShare(tasks: seq<Task>, user: Option<User>)
    ensures ChecklistProgress(tasks, user)
              == Progress(|Filter(MyTasks(tasks, user), (t: Task) => t.status == Completed)|, |MyTasks(tasks, user)|)
  {
  }

  // ---------------------------------------------------------------------
  // Order on screen.

  /** Critical first, low last. */
  function Rank(p: Priority): (r: nat)
    ensures r <= 3
    ensures p == Critical <==> r == 0
    ensures p == High <==> r == 1
    ensures p == Medium <==> r == 2
    ensures p == Low <==> r == 3
  {
    match p
    case Critical => 0
    case High => 1
    case Medium => 2
    case Low => 3
  }

  lemma {:induction false} RankInjective(p: Priority, q: Priority)
    ensures Rank(p) == Rank(q) <==> p == q
  {
  }

  /** The comparator: `a` may come before `b`. `key` stands for the
      instant a deadline text denotes. */
  predicate Before(a: Task, b: Task, key: string -> int) {
    Rank(a.priority) < Rank(b.priority) ||
    (Rank(a.priority) == Rank(b.priority) && key(a.deadline) <= key(b.deadline))
  }

  predicate Sorted(ts: seq<Task>, key: string -> int) {
    forall i, j :: 0 <= i < j < |ts| ==> Before(ts[i], ts[j], key)
  }

  /** Inserting `x` ahead of the first task it may precede; `x` goes before
      every task it ties with. */
  function Insert(x: Task, s: seq<Task>, key: string -> int): (r: seq<Task>)
    ensures |r| == |s| + 1
    ensures multiset(r) == multiset(s) + multiset{x}
  {
    if |s| == 0 then [x]
    else if Before(x, s[0], key) then [x] + s
    else
      assert s == [s[0]] + s[1..];
      [s[0]] + Insert(x, s[1..], key)
  }

  lemma {:induction false} InsertSorted(x: Task, s: seq<Task>, key: string -> int)
    requires Sorted(s, key)
    ensures Sorted(Insert(x, s, key), key)
  {
    if |s| > 0 {
      if Before(x, s[0], key) {
        forall k | 0 <= k < |s|
          ensures Before(x, s[k], key)
        {
          if k > 0 {
            assert Before(s[0], s[k], key);
          }
        }
      } else {
        assert Sorted(s[1..], key);
        InsertSorted(x, s[1..], key);
        assert forall m :: 0 <= m < |s[1..]| ==> Before(s[0], s[1..][m], key);
        InsertAfter(s[0], x, s[1..], key);
      }
    }
  }

  /** A task that may precede `x` and every task of `s` may precede every
      task of `Insert(x, s)`. */
  lemma {:induction false} InsertAfter(h: Task, x: Task, s: seq<Task>, key: string -> int)
    requires Before(h, x, key)
    requires forall m :: 0 <= m < |s| ==> Before(h, s[m], key)
    ensures forall k :: 0 <= k < |Insert(x, s, key)| ==> Before(h, Insert(x, s, key)[k], key)
  {
    if |s| > 0 && !Before(x, s[0], key) {
      assert forall m :: 0 <= m < |s[1..]| ==> Before(h, s[1..][m], key);
      InsertAfter(h, x, s[1..], key);
    }
  }

  /** The stable sort of the checklist. */
  function SortTasks(ts: seq<Task>, key: string -> int): (r: seq<Task>)
    ensures multiset(r) == multiset(ts)
    ensures Sorted(r, key)
  {
    if |ts| == 0 then []
    else
      assert ts == [ts[0]] + ts[1..];
      InsertSorted(ts[0], SortTasks(ts[1..], key), key);
      Insert(ts[0], SortTasks(ts[1..], key), key)
  }

  /** The comparator returns 0: same rank, same deadline instant. */
  predicate Tied(a: Task, b: Task, key: string -> int) {
    Rank(a.priority) == Rank(b.priority) && key(a.deadline) == key(b.deadline)
  }

  /** Insertion passes over no task tied with `x`: among the tasks tied
      with `y`, `x` (if it is one) comes first. */
  lemma {:induction false} InsertTied(x: Task, s: seq<Task>, key: string -> int, y: Task)
    ensures Filter(Insert(x, s, key), (t: Task) => Tied(t, y, key))
              == (if Tied(x, y, key) then [x] else []) + Filter(s, (t: Task) => Tied(t, y, key))
  {
    var p := (t: Task) => Tied(t, y, key);
    if |s| > 0 && !Before(x, s[0], key) {
      var rest := Insert(x, s[1..], key);
      InsertTied(x, s[1..], key, y);
      assert ([s[0]] + rest)[1..] == rest;
      assert Tied(x, y, key) ==> !p(s[0]);
      if p(s[0]) {
        assert ([s[0]] + rest)[0] == s[0];
        assert Filter([s[0]] + rest, p) == [s[0]] + Filter(rest, p);
      } else {
        assert Filter([s[0]] + rest, p) == Filter(rest, p);
      }
    } else if |s| > 0 {
      assert ([x] + s)[1..] == s;
    }
  }

  /** The sort is stable: tasks the comparator ties keep their order. */
  lemma {:induction false} SortStable(ts: seq<Task>, key: string -> int, y: Task)
    ensures Filter(SortTasks(ts, key), (t: Task) => Tied(t, y, key))
              == Filter(ts, (t: Task) => Tied(t, y, key))
  {
    if |ts| > 0 {
      SortStable(ts[1..], key, y);
      InsertTied(ts[0], SortTasks(ts[1..], key), key, y);
    }
  }

  /** The sort keeps a list that is already in order exactly as it is. */
  lemma {:induction false} SortKeepsSorted(ts: seq<Task>, key: string -> int)
    requires Sorted(ts, key)
    ensures SortTasks(ts, key) == ts
  {
    if |ts| > 0 {
      assert Sorted(ts[1..], key);
      SortKeepsSorted(ts[1..], key);
    }
  }

  /** A change to tasks that keeps their priority and deadline. */
  ghost predicate KeepsOrderKeys(g: Task -> Task) {
    forall t :: g(t).priority == t.priority && g(t).deadline == t.deadline
  }

  lemma {:induction false} InsertMap(x: Task, s: seq<Task>, key: string -> int, g: Task -> Task)
    requires KeepsOrderKeys(g)
    ensures Insert(g(x), Map(g, s), key) == Map(g, Insert(x, s, key))
  {
    if |s| > 0 {
      var ms := Map(g, s);
      assert ms[0] == g(s[0]) && ms[1..] == Map(g, s[1..]);
      if !Before(x, s[0], key) {
        InsertMap(x, s[1..], key, g);
      }
    }
  }

  /** Sorting and such a change commute: the changed list is shown in the
      order the original was. */
  lemma {:induction false} SortMap(ts: seq<Task>, key: string -> int, g: Task -> Task)
    requires KeepsOrderKeys(g)
    ensures SortTasks(Map(g, ts), key) == Map(g, SortTasks(ts, key))
  {
    if |ts| > 0 {
      var mt := Map(g, ts);
      assert mt[0] == g(ts[0]) && mt[1..] == Map(g, ts[1..]);
      SortMap(ts[1..], key, g);
      InsertMap(ts[0], SortTasks(ts[1..], key), key, g);
    }
  }

  lemma {:induction false} FilterMap(xs: seq<Task>, p: Task -> bool, g: Task -> Task)
    requires forall t :: p(g(t)) == p(t)
    ensures Filter(Map(g, xs), p) == Map(g, Filter(xs, p))
  {
    if |xs| > 0 {
      var mx := Map(g, xs);
      assert mx[0] == g(xs[0]) && mx[1..] == Map(g, xs[1..]);
      FilterMap(xs[1..], p, g);
      assert Filter(mx, p) == (if p(mx[0]) then [mx[0]] else []) + Filter(mx[1..], p);
      assert Filter(xs, p) == (if p(xs[0]) then [xs[0]] else []) + Filter(xs[1..], p);
      if p(xs[0]) {
        assert Map(g, [xs[0]] + Filter(xs[1..], p))[1..] == Map(g, Filter(xs[1..], p));
      }
    }
  }

  /** The status toggle applied to one task, which it changes only when
      the id matches. */
  function ToggleIf(id: string, now: string): Task -> Task {
    (t: Task) => if t.id == id then ToggleOne(t, now) else t
  }

  lemma {:induction false} ToggleIsMap(s: Store, id: string, now: string)
    ensures ToggleTaskStatus(s, id, now) == s.(tasks := Map(ToggleIf(id, now), s.tasks))
  {
    var r := ToggleTaskStatus(s, id, now);
    assert r.tasks == Map(ToggleIf(id, now), s.tasks);
  }

  /** The toggle changes the visible task list in place. */
  lemma {:induction false} ToggleVisibleTasks(s: Store, id: string, now: string)
    ensures Views(ToggleTaskStatus(s, id, now)).tasks == Map(ToggleIf(id, now), Views(s).tasks)
  {
    var g := ToggleIf(id, now);
    ToggleIsMap(s, id, now);
    if s.currentUser.Some? && s.currentUser.value.role != SuperAdmin {
      var me := s.currentUser.value;
      var p := (t: Task) => t.organizationId == me.organizationId;
      FilterMap(s.tasks, p, g);
      assert Views(s).tasks == Filter(s.tasks, p);
    }
  }

  /** The toggle changes a user's checklist in place. */
  lemma {:induction false} ToggleMyTasks(ts: seq<Task>, user: Option<User>, id: string, now: string)
    ensures MyTasks(Map(ToggleIf(id, now), ts), user) == Map(ToggleIf(id, now), MyTasks(ts, user))
  {
    if user.Some? {
      FilterMap(ts, (t: Task) => t.assignedTo == user.value.id, ToggleIf(id, now));
    }
  }

  /** Ticking a task never moves anything on the checklist: after the
      toggle, the sorted checklist of the logged-in user's visible tasks is
      the one from before with that task toggled in place. */
  lemma {:induction false} ToggleKeepsPositions(s: Store, id: string, now: string, key: string -> int)
    ensures var g := ToggleIf(id, now);
            SortTasks(MyTasks(Views(ToggleTaskStatus(s, id, now)).tasks, s.currentUser), key)
              == Map(g, SortTasks(MyTasks(Views(s).tasks, s.currentUser), key))
  {
    var g := ToggleIf(id, now);
    var mine := MyTasks(Views(s).tasks, s.currentUser);
    ToggleVisibleTasks(s, id, now);
    ToggleMyTasks(Views(s).tasks, s.currentUser, id, now);
    SortMap(mine, key, g);
  }
}

=== FILE: auth.dfy ===
/** Logging in and out. The credential check runs over the full stored user
    list of every tenant (the seed users when nothing is stored), takes the
    first user whose username and password both match, and keeps that user
    as the session between reloads. Durable storage is the `Saved` record of
    the store plus the session entry. */
module Auth {
  import opened Types
  import opened Seed
  import opened DataStore
  import opened Directory

  /** The user list the login checks: the stored one, else the seed. */
  function LoginUsers(saved: Saved): (r: seq<User>)
    ensures saved.users.None? ==> r == MockUsers()
    ensures saved.users.Some? ==> r == saved.users.value
  {
    if saved.users.Some? then saved.users.value else MockUsers()
  }

  /** A user matches when both the username and the password are equal; a
      user without a password never matches. */
  predicate Matches(u: User, username: string, pass: string) {
    u.username == username && u.password == Some(pass)
  }

  /** The first user whose credentials match. */
  function FindCredential(users: seq<User>, username: string, pass: string): (r: Option<User>)
    ensures r.None? <==> forall i :: 0 <= i < |users| ==> !Matches(users[i], username, pass)
    ensures r.Some? ==> exists i :: 0 <= i < |users| && users[i] == r.value && Matches(r.value, username, pass) &&
                                    forall j :: 0 <= j < i ==> !Matches(users[j], username, pass)
  {
    if |users| == 0 then None
    else if Matches(users[0], username, pass) then Some(users[0])
    else
      var r := FindCredential(users[1..], username, pass);
      assert forall i :: 1 <= i < |users| ==> users[1..][i - 1] == users[i];
      if r.Some? then
        ghost var k :| 0 <= k < |users[1..]| && users[1..][k] == r.value && Matches(r.value, username, pass) &&
                       forall j :: 0 <= j < k ==> !Matches(users[1..][j], username, pass);
        assert users[k + 1] == r.value;
        r
      else r
  }

  datatype LoginResult = LoginResult(ok: bool, store: Store, session: Option<User>)

  /** `login(username, pass)`: on a match the current user and the session
      become the first matching user and the answer is true; otherwise the
      answer is false and nothing changes. */
  function Login(s: Store, saved: Saved, session: Option<User>, username: string, pass: string): (r: LoginResult)
    ensures r.ok <==> exists u :: u in LoginUsers(saved) && Matches(u, username, pass)
    ensures r.ok ==> && r.store == s.(currentUser := FindCredential(LoginUsers(saved), username, pass))
                     && r.session == r.store.currentUser
    ensures !r.ok ==> r.store == s && r.session == session
  {
    var found := FindCredential(LoginUsers(saved), username, pass);
    if found.Some? then LoginResult(true, s.(currentUser := found), found)
    else LoginResult(false, s, session)
  }

  /** A failed login tells nothing: an unknown username and a wrong password
      give the same answer and the same state. */
  lemma {:induction false} LoginFailureIndistinguishable(s: Store, saved: Saved, session: Option<User>,
                                                         u1: string, p1: string, u2: string, p2: string)
    requires !Login(s, saved, session, u1, p1).ok && !Login(s, saved, session, u2, p2).ok
    ensures Login(s, saved, session, u1, p1) == Login(s, saved, session, u2, p2)
  {
  }

  /** `logout`: nobody is logged in and the session entry is removed. */
  function Logout(s: Store): (r: (Store, Option<User>))
    ensures r.0 == s.(currentUser := None) && r.1.None?
  {
    (s.(currentUser := None), None)
  }

  /** The restore-on-mount effect: the stored session is adopted only when
      nobody is logged in yet. */
  function RestoreOnMount(s: Store, session: Option<User>): (r: Store)
    ensures s.currentUser.Some? ==> r == s
    ensures s.currentUser.None? ==> r == s.(currentUser := session)
  {
    if session.Some? && s.currentUser.None? then s.(currentUser := session) else s
  }

  /** A session survives a reload: after a successful login, a fresh load
      of the persisted store followed by the restore effect has the same
      user logged in. */
  lemma {:induction false} LoginSurvivesReload(s: Store, saved: Saved, session: Option<User>, username: string, pass: string,
                                               before: Saved, env: Option<string>, today: string, now: string)
    requires Login(s, saved, session, username, pass).ok
    ensures var r := Login(s, saved, session, username, pass);
            RestoreOnMount(Load(Persist(r.store, before), env, today, now), r.session).currentUser
              == r.store.currentUser
  {
  }

  /** Logging out after logging in leaves the store as it was, logged out. */
  lemma {:induction false} LoginThenLogout(s: Store, saved: Saved, session: Option<User>, username: string, pass: string)
    ensures Logout(Login(s, saved, session, username, pass).store).0 == s.(currentUser := None)
  {
  }

  /** The admin created with a new organization can log in at once, with
      the username and password given, against the persisted user list; when
      no earlier user has that username, the login is theirs. */
  lemma {:induction false} LoginAfterAddOrganization(s: Store, name: string, adminUsername: string, adminPass: string,
                                                     adminName: string, orgMillis: nat, userMillis: nat, now: string,
                                                     before: Saved, session: Option<User>)
    requires IsSuperAdmin(s.currentUser)
    ensures var r := AddOrganization(s, name, adminUsername, adminPass, adminName, orgMillis, userMillis, now);
            Login(r, Persist(r, before), session, adminUsername, adminPass).ok
    ensures var r := AddOrganization(s, name, adminUsername, adminPass, adminName, orgMillis, userMillis, now);
            (forall u :: u in s.users ==> u.username != adminUsername) ==>
              Login(r, Persist(r, before), session, adminUsername, adminPass).store.currentUser
                == Some(r.users[|s.users|])
  {
    var r := AddOrganization(s, name, adminUsername, adminPass, adminName, orgMillis, userMillis, now);
    var admin := r.users[|s.users|];
    assert admin in r.users;
    if forall u :: u in s.users ==> u.username != adminUsername {
      var found := FindCredential(r.users, adminUsername, adminPass);
      var k :| 0 <= k < |r.users| && r.users[k] == found.value && Matches(found.value, adminUsername, adminPass);
    }
  }

  /** After a password reset, the user with that id logs in with the new
      password. */
  lemma {:induction false} LoginAfterReset(s: Store, k: nat, newPass: string, before: Saved, session: Option<User>)
    requires k < |s.users|
    ensures var r := ResetUserPassword(s, s.users[k].id, newPass);
            Login(r, Persist(r, before), session, s.users[k].username, newPass).ok
  {
    var r := ResetUserPassword(s, s.users[k].id, newPass);
    assert r.users[k] in r.users;
  }

  /** With nothing stored, the seed credentials work: the super-admin logs
      in with "superadmin" / "master123". */
  lemma {:induction false} SeedSuperAdminLogin(s: Store, session: Option<User>)
    ensures Login(s, NothingSaved, session, "superadmin", "master123").store.currentUser
              == Some(MockUsers()[0])
  {
    assert Matches(MockUsers()[0], "superadmin", "master123");
  }
}

=== FILE: csv.dfy ===
/** The CSV export of the visible tasks: a fixed header and one row of nine
    cells per task; free-text cells are wrapped in double quotes with inner
    quotes doubled. The byte-order mark, the file name and the download are
    not modelled. */
module Csv {
  import opened Types
  import opened Seqs
  import opened DataStore
  import opened TenantViews

  /** The text with every double quote doubled. */
  function Escape(s: string): (r: string)
    ensures |r| >= |s|
    ensures '"' in s ==> |r| > |s|
  {
    if |s| == 0 then ""
    else
      assert s == [s[0]] + s[1..];
      (if s[0] == '"' then "\"\"" else [s[0]]) + Escape(s[1..])
  }

  /** A text without quotes is written as it is. */
  lemma {:induction false} EscapeWithoutQuotes(s: string)
    requires '"' !in s
    ensures Escape(s) == s
  {
    if |s| > 0 {
      EscapeWithoutQuotes(s[1..]);
      assert s == [s[0]] + s[1..];
    }
  }

  /** A cell as the export writes free text. */
  function Quote(s: string): (r: string)
    ensures |r| == |Escape(s)| + 2 && r[0] == '"' && r[|r| - 1] == '"'
  {
    "\"" + Escape(s) + "\""
  }

  /** Reading an escaped text back: a doubled quote stands for one quote; a
      lone quote cannot occur. */
  function Unescape(e: string): (r: Option<string>)
  {
    if |e| == 0 then Some("")
    else if e[0] != '"' then
      match Unescape(e[1..])
      case None => None
      case Some(rest) => Some([e[0]] + rest)
    else if |e| >= 2 && e[1] == '"' then
      match Unescape(e[2..])
      case None => None
      case Some(rest) => Some("\"" + rest)
    else None
  }

  /** Reading a quoted cell back. */
  function Unquote(q: string): (r: Option<string>)
  {
    if |q| >= 2 && q[0] == '"' && q[|q| - 1] == '"' then Unescape(q[1..|q| - 1]) else None
  }

  lemma {:induction false} EscapeRoundTrip(s: string)
    ensures Unescape(Escape(s)) == Some(s)
  {
    if |s| > 0 {
      EscapeRoundTrip(s[1..]);
      var e := Escape(s);
      assert s == [s[0]] + s[1..];
      if s[0] == '"' {
        assert e == "\"\"" + Escape(s[1..]);
        assert e[2..] == Escape(s[1..]);
      } else {
        assert e == [s[0]] + Escape(s[1..]);
        assert e[1..] == Escape(s[1..]);
      }
    }
  }

  /** Every quoted cell reads back as the text it was made from, so a text
      with quotes, commas or line breaks survives the export. */
  lemma {:induction false} QuoteRoundTrip(s: string)
    ensures Unquote(Quote(s)) == Some(s)
  {
    var q := Quote(s);
    assert q[1..|q| - 1] == Escape(s);
    EscapeRoundTrip(s);
  }

  /** The first visible user with that id, if any. */
  function FindUser(users: seq<User>, id: string): (r: Option<User>)
    ensures r.None? <==> forall i :: 0 <= i < |users| ==> users[i].id != id
    ensures r.Some? ==> exists k :: 0 <= k < |users| && users[k] == r.value && r.value.id == id &&
                                    forall j :: 0 <= j < k ==> users[j].id != id
  {
    if |users| == 0 then None
    else if users[0].id == id then Some(users[0])
    else
      var r := FindUser(users[1..], id);
      assert forall i :: 1 <= i < |users| ==> users[1..][i - 1] == users[i];
      if r.Some? then
        ghost var k :| 0 <= k < |users[1..]| && users[1..][k] == r.value && r.value.id == id &&
                       forall j :: 0 <= j < k ==> users[1..][j].id != id;
        assert users[k + 1] == r.value;
        r
      else r
  }

  /** An optional text, written as the empty text when missing. */
  function TextOrEmpty(o: Option<string>): string {
    if o.Some? then o.value else ""
  }

  const Unknown: string := "Desconocido"

  const Header: seq<string> :=
    ["ID", "T\U{00ED}tulo", "Categor\U{00ED}a", "Prioridad", "Estado",
     "Asignado A", "Fecha L\U{00ED}mite", "Completado En", "Notas"]

  /** The name the export shows for an assignee id. */
  function AssigneeName(users: seq<User>, id: string): (r: string)
    ensures FindUser(users, id).Some? ==> r == FindUser(users, id).value.fullName
    ensures FindUser(users, id).None? ==> r == Unknown
  {
    var user := FindUser(users, id);
    if user.Some? then user.value.fullName else Unknown
  }

  /** The nine cells of a task's row, given the name shown for its assignee. */
  function RowCells(t: Task, name: string): (r: seq<string>)
    ensures |r| == 9
    ensures r[0] == t.id && r[6] == t.deadline && r[7] == TextOrEmpty(t.completedAt)
    ensures r[3] == PriorityName(t.priority) && r[4] == StatusName(t.status)
    ensures r[1] == Quote(t.title) && r[2] == Quote(t.category)
    ensures r[5] == Quote(name) && r[8] == Quote(TextOrEmpty(t.notes))
  {
    [t.id, Quote(t.title), Quote(t.category), PriorityName(t.priority), StatusName(t.status),
     Quote(name), t.deadline, TextOrEmpty(t.completedAt), Quote(TextOrEmpty(t.notes))]
  }

  /** The row of one task; the assignee's name is looked up among `users`
      (the visible users), falling back to "Desconocido". */
  function CsvRow(t: Task, users: seq<User>): (r: seq<string>)
  {
    RowCells(t, AssigneeName(users, t.assignedTo))
  }

  /** The free-text cells of a row read back as the task's title,
      category and notes and the assignee's name (or "Desconocido" when the
      assignee is not among `users`), whatever characters they hold. */
  lemma {:induction false} CsvRowReadsBack(t: Task, users: seq<User>)
    ensures |CsvRow(t, users)| == 9
    ensures var r := CsvRow(t, users);
      && Unquote(r[1]) == Some(t.title) && Unquote(r[2]) == Some(t.category)
      && Unquote(r[8]) == Some(TextOrEmpty(t.notes))
      && (FindUser(users, t.assignedTo).Some? ==> Unquote(r[5]) == Some(FindUser(users, t.assignedTo).value.fullName))
      && (FindUser(users, t.assignedTo).None? ==> Unquote(r[5]) == Some(Unknown))
  {
    var name := AssigneeName(users, t.assignedTo);
    var r := RowCells(t, name);
    assert CsvRow(t, users) == r;
    QuoteRoundTrip(t.title);
    QuoteRoundTrip(t.category);
    QuoteRoundTrip(name);
    QuoteRoundTrip(TextOrEmpty(t.notes));
  }

  /** The cells with one `sep` between each two. */
  function Join(cells: seq<string>, sep: char): (r: string)
  {
    if |cells| == 0 then ""
    else if |cells| == 1 then cells[0]
    else cells[0] + [sep] + Join(cells[1..], sep)
  }

  /** The pieces of `text` between the occurrences of `sep`. */
  function Split(text: string, sep: char): (r: seq<string>)
    ensures |r| >= 1
    decreases |text|
  {
    if |text| == 0 then [""]
    else if text[0] == sep then [""] + Split(text[1..], sep)
    else
      var rest := Split(text[1..], sep);
      [[text[0]] + rest[0]] + rest[1..]
  }

  lemma {:induction false} SplitNoSep(s: string, tail: string, sep: char)
    requires sep !in s
    ensures Split(s + [sep] + tail, sep) == [s] + Split(tail, sep)
    ensures Split(s, sep) == [s]
  {
    if |s| > 0 {
      SplitNoSep(s[1..], tail, sep);
      assert (s + [sep] + tail)[1..] == s[1..] + [sep] + tail;
      assert [s[0]] + s[1..] == s;
    } else {
      assert s + [sep] + tail == [sep] + tail;
    }
  }

  /** Splitting a joined line gives the cells back, as long as no cell
      contains the separator. */
  lemma {:induction false} SplitJoin(cells: seq<string>, sep: char)
    requires |cells| >= 1
    requires forall i :: 0 <= i < |cells| ==> sep !in cells[i]
    ensures Split(Join(cells, sep), sep) == cells
  {
    if |cells| == 1 {
      SplitNoSep(cells[0], "", sep);
    } else {
      SplitJoin(cells[1..], sep);
      SplitNoSep(cells[0], Join(cells[1..], sep), sep);
    }
  }

  lemma {:induction false} JoinAvoids(cells: seq<string>, sep: char, c: char)
    requires c != sep
    requires forall i :: 0 <= i < |cells| ==> c !in cells[i]
    ensures c !in Join(cells, sep)
  {
    if |cells| > 1 {
      JoinAvoids(cells[1..], sep, c);
    }
  }

  /** One exported line: the row's cells joined with commas. */
  function Line(t: Task, users: seq<User>): string {
    Join(CsvRow(t, users), ',')
  }

  function Rows(tasks: seq<Task>, users: seq<User>): (r: seq<string>)
    ensures |r| == |tasks|
    ensures forall i :: 0 <= i < |tasks| ==> r[i] == Line(tasks[i], users)
  {
    if |tasks| == 0 then [] else [Line(tasks[0], users)] + Rows(tasks[1..], users)
  }

  /** The lines of the export: the header, then one row per visible task in
      the order of the view, assignees looked up among the visible users. */
  function CsvLines(v: View): (r: seq<string>)
    ensures |r| == 1 + |v.tasks|
    ensures r[0] == Join(Header, ',')
    ensures r[1..] == Rows(v.tasks, v.users)
  {
    [Join(Header, ',')] + Rows(v.tasks, v.users)
  }

  /** The whole export: the header and the rows of the logged-in user's
      view, one per line. */
  function CsvContent(s: Store): (r: string)
  {
    Join(CsvLines(Views(s)), '\n')
  }

  /** No text a task's row is made of holds a line break. */
  predicate OneLine(t: Task, name: string) {
    && '\n' !in t.id && '\n' !in t.title && '\n' !in t.category && '\n' !in name
    && '\n' !in t.deadline && '\n' !in TextOrEmpty(t.completedAt) && '\n' !in TextOrEmpty(t.notes)
  }

  lemma {:induction false} EscapeAvoids(s: string, c: char)
    requires c != '"' && c !in s
    ensures c !in Escape(s)
  {
    if |s| > 0 {
      EscapeAvoids(s[1..], c);
    }
  }

  lemma {:induction false} RowOneLine(t: Task, name: string)
    requires OneLine(t, name)
    ensures '\n' !in Join(RowCells(t, name), ',')
  {
    var row := RowCells(t, name);
    EscapeAvoids(t.title, '\n');
    EscapeAvoids(t.category, '\n');
    EscapeAvoids(name, '\n');
    EscapeAvoids(TextOrEmpty(t.notes), '\n');
    assert '\n' !in row[0] && '\n' !in row[1] && '\n' !in row[2];
    assert '\n' !in row[3] && '\n' !in row[4] && '\n' !in row[5];
    assert '\n' !in row[6] && '\n' !in row[7] && '\n' !in row[8];
    JoinAvoids(row, ',', '\n');
  }

  /** When no exported text holds a line break, the export has exactly one
      line per visible task after the header, in the order of the view. */
  lemma {:induction false} CsvLineCount(s: Store)
    requires forall t :: t in Views(s).tasks ==> OneLine(t, AssigneeName(Views(s).users, t.assignedTo))
    ensures Split(CsvContent(s), '\n') == CsvLines(Views(s))
    ensures |Split(CsvContent(s), '\n')| == 1 + |Views(s).tasks|
  {
    var v := Views(s);
    var lines := CsvLines(v);
    HeaderOneLine();
    forall i | 0 <= i < |lines|
      ensures '\n' !in lines[i]
    {
      if i > 0 {
        assert v.tasks[i - 1] in v.tasks;
        RowOneLine(v.tasks[i - 1], AssigneeName(v.users, v.tasks[i - 1].assignedTo));
      }
    }
    SplitJoin(lines, '\n');
  }

  lemma {:induction false} HeaderOneLine()
    ensures '\n' !in Join(Header, ',')
  {
    assert '\n' !in Header[0] && '\n' !in Header[1] && '\n' !in Header[2];
    assert '\n' !in Header[3] && '\n' !in Header[4] && '\n' !in Header[5];
    assert '\n' !in Header[6] && '\n' !in Header[7] && '\n' !in Header[8];
    JoinAvoids(Header, ',', '\n');
  }

  /** Nobody logged in, or the super-admin (whose task view is empty),
      exports the header alone. */
  lemma {:induction false} HeaderOnlyWithoutTasks(s: Store)
    requires s.currentUser.None? || s.currentUser.value.role == SuperAdmin
    ensures CsvContent(s) == Join(Header, ',')
  {
  }
}

=== FILE: directory.dfy ===
/** The mutators of the tenant directory: creating an organization with its
    first admin (super-admin only), adding a user to the caller's own
    organization, resetting a password, and saving (upsert by id) or
    deleting a task template. The millisecond clock readings that become the
    new ids are parameters. */
module Directory {
  import opened Types
  import opened Seqs
  import opened Text
  import opened DataStore
  import opened TenantViews

  /** New organization and user ids: a prefix and the decimal reading of
      the millisecond clock. */
  function OrgId(millis: nat): (r: string)
    ensures |r| > 4 && r[..4] == "org_"
  {
    "org_" + Decimal(millis)
  }

  function UserId(millis: nat): (r: string)
    ensures |r| > 2 && r[..2] == "u_"
  {
    "u_" + Decimal(millis)
  }

  predicate IsSuperAdmin(u: Option<User>) {
    u.Some? && u.value.role == SuperAdmin
  }

  /** `addOrganization`: for the super-admin only, appends an active
      organization and an admin bound to it that can log in with the given
      password; for anyone else nothing changes. */
  function AddOrganization(s: Store, name: string, adminUsername: string, adminPass: string,
                           adminName: string, orgMillis: nat, userMillis: nat, now: string): (r: Store)
    ensures !IsSuperAdmin(s.currentUser) ==> r == s
    ensures IsSuperAdmin(s.currentUser) ==>
      && r == s.(orgs := r.orgs, users := r.users)
      && |r.orgs| == |s.orgs| + 1 && r.orgs[..|s.orgs|] == s.orgs
      && |r.users| == |s.users| + 1 && r.users[..|s.users|] == s.users
      && var org, admin := r.orgs[|s.orgs|], r.users[|s.users|];
         && org.id == OrgId(orgMillis) && org.name == name && org.isActive && org.createdAt == now
         && admin.organizationId == org.id && admin.role == Admin
         && admin.username == adminUsername && admin.password == Some(adminPass)
         && admin.fullName == adminName && admin.id == UserId(userMillis)
  {
    if !IsSuperAdmin(s.currentUser) then s
    else
      var org := Organization(OrgId(orgMillis), name, now, true);
      var admin := User(UserId(userMillis), org.id, adminUsername, adminName, Admin, Some(adminPass));
      s.(orgs := s.orgs + [org], users := s.users + [admin])
  }

  /** A fresh tenant starts empty: when no user, task or template of the
      store carries the new organization id, its admin sees exactly
      themselves and nothing else. */
  lemma {:induction false} NewTenantStartsEmpty(s: Store, name: string, adminUsername: string, adminPass: string,
                                                adminName: string, orgMillis: nat, userMillis: nat, now: string)
    requires IsSuperAdmin(s.currentUser)
    requires forall u :: u in s.users ==> u.organizationId != OrgId(orgMillis)
    requires forall t :: t in s.tasks ==> t.organizationId != OrgId(orgMillis)
    requires forall t :: t in s.templates ==> t.organizationId != OrgId(orgMillis)
    ensures var r := AddOrganization(s, name, adminUsername, adminPass, adminName, orgMillis, userMillis, now);
            var admin := r.users[|s.users|];
            Views(r.(currentUser := Some(admin))) == View([], [admin], [], [])
  {
    var r := AddOrganization(s, name, adminUsername, adminPass, adminName, orgMillis, userMillis, now);
    var admin := r.users[|s.users|];
    var org := OrgId(orgMillis);
    var mine := (x: User) => x.organizationId == org;
    FilterAppend(s.users, admin, mine);
    FilterNone(s.users, mine);
    FilterNone(s.tasks, (t: Task) => t.organizationId == org);
    FilterNone(s.templates, (t: TaskTemplate) => t.organizationId == org);
  }

  /** `addUser`: appends a user bound to the caller's organization (for the
      super-admin that is "system"); without a logged-in user nothing
      changes. */
  function AddUser(s: Store, fullName: string, username: string, password: string,
                   role: Role, millis: nat): (r: Store)
    ensures s.currentUser.None? ==> r == s
    ensures s.currentUser.Some? ==>
      && r == s.(users := r.users)
      && |r.users| == |s.users| + 1 && r.users[..|s.users|] == s.users
      && var u := r.users[|s.users|];
         && u.organizationId == s.currentUser.value.organizationId
         && u.id == UserId(millis) && u.username == username && u.fullName == fullName
         && u.role == role && u.password == Some(password)
  {
    match s.currentUser
    case None => s
    case Some(me) =>
      s.(users := s.users + [User(UserId(millis), me.organizationId, username, fullName, role, Some(password))])
  }

  /** An admin or analyst who adds a user sees that user appended to their
      own user view; the views of every other tenant are untouched. */
  lemma {:induction false} AddUserShowsInTenant(s: Store, fullName: string, username: string, password: string,
                                                role: Role, millis: nat, viewer: User)
    requires s.currentUser.Some? && s.currentUser.value.role != SuperAdmin
    requires viewer.role != SuperAdmin
    ensures var r := AddUser(s, fullName, username, password, role, millis);
            var before := Views(s.(currentUser := Some(viewer))).users;
            var after := Views(r.(currentUser := Some(viewer))).users;
            if viewer.organizationId == s.currentUser.value.organizationId
            then after == before + [r.users[|s.users|]]
            else after == before
  {
    var r := AddUser(s, fullName, username, password, role, millis);
    FilterAppend(s.users, r.users[|s.users|], (x: User) => x.organizationId == viewer.organizationId);
  }

  /** `resetUserPassword`: the password of every user with that id is
      replaced; nothing else changes. */
  function ResetUserPassword(s: Store, userId: string, newPass: string): (r: Store)
    ensures r == s.(users := r.users) && |r.users| == |s.users|
    ensures forall i :: 0 <= i < |s.users| ==>
              if s.users[i].id == userId then r.users[i] == s.users[i].(password := Some(newPass))
              else r.users[i] == s.users[i]
  {
    s.(users := seq(|s.users|, i requires 0 <= i < |s.users| =>
         if s.users[i].id == userId then s.users[i].(password := Some(newPass)) else s.users[i]))
  }

  /** Resetting twice is resetting once to the second password. */
  lemma {:induction false} ResetLastWriteWins(s: Store, userId: string, a: string, b: string)
    ensures ResetUserPassword(ResetUserPassword(s, userId, a), userId, b) == ResetUserPassword(s, userId, b)
  {
  }

  // ---------------------------------------------------------------------
  // Templates.

  /** The first template with that id, if any. */
  function FindTemplate(ts: seq<TaskTemplate>, id: string): (r: Option<TaskTemplate>)
    ensures r.None? <==> forall i :: 0 <= i < |ts| ==> ts[i].id != id
    ensures r.Some? ==> exists i :: 0 <= i < |ts| && ts[i] == r.value && r.value.id == id &&
                                    forall j :: 0 <= j < i ==> ts[j].id != id
  {
    if |ts| == 0 then None
    else if ts[0].id == id then Some(ts[0])
    else
      var r := FindTemplate(ts[1..], id);
      assert forall i :: 1 <= i < |ts| ==> ts[1..][i - 1] == ts[i];
      if r.Some? then
        ghost var k :| 0 <= k < |ts[1..]| && ts[1..][k] == r.value && r.value.id == id &&
                       forall j :: 0 <= j < k ==> ts[1..][j].id != id;
        assert ts[k + 1] == r.value;
        r
      else r
  }

  /** `saveTemplate`: without a logged-in user nothing changes; otherwise the
      template, stamped with the caller's organization, replaces every
      template with its id, or is appended when there is none. */
  function SaveTemplate(s: Store, id: string, name: string, items: seq<TemplateItem>): (r: Store)
    ensures s.currentUser.None? ==> r == s
    ensures s.currentUser.Some? ==>
      var full := TaskTemplate(id, s.currentUser.value.organizationId, name, items);
      && r == s.(templates := r.templates)
      && FindTemplate(r.templates, id) == Some(full)
      && |r.templates| == |s.templates| + (if FindTemplate(s.templates, id).Some? then 0 else 1)
      && (forall i :: 0 <= i < |s.templates| && s.templates[i].id != id ==> r.templates[i] == s.templates[i])
      && (forall i :: 0 <= i < |s.templates| && s.templates[i].id == id ==> r.templates[i] == full)
  {
    match s.currentUser
    case None => s
    case Some(me) =>
      var full := TaskTemplate(id, me.organizationId, name, items);
      var ts := s.templates;
      if FindTemplate(ts, id).Some? then
        var r := ReplaceById(ts, id, full);
        ghost var k :| 0 <= k < |ts| && ts[k].id == id;
        assert r[k] == full;
        FindFirst(r, id, full);
        s.(templates := r)
      else
        var r := ts + [full];
        FindLast(ts, full);
        s.(templates := r)
  }

  /** Every template with the id replaced by `full`, the rest kept. */
  function ReplaceById(ts: seq<TaskTemplate>, id: string, full: TaskTemplate): (r: seq<TaskTemplate>)
    ensures |r| == |ts|
    ensures forall i :: 0 <= i < |ts| && ts[i].id == id ==> r[i] == full
    ensures forall i :: 0 <= i < |ts| && ts[i].id != id ==> r[i] == ts[i]
  {
    seq(|ts|, i requires 0 <= i < |ts| => if ts[i].id == id then full else ts[i])
  }

  lemma {:induction false} FindFirst(ts: seq<TaskTemplate>, id: string, full: TaskTemplate)
    requires full.id == id && exists i :: 0 <= i < |ts| && ts[i] == full
    requires forall i :: 0 <= i < |ts| && ts[i].id == id ==> ts[i] == full
    ensures FindTemplate(ts, id) == Some(full)
  {
  }

  lemma {:induction false} FindLast(ts: seq<TaskTemplate>, full: TaskTemplate)
    requires forall i :: 0 <= i < |ts| ==> ts[i].id != full.id
    ensures FindTemplate(ts + [full], full.id) == Some(full)
  {
    var r := ts + [full];
    assert r[|ts|] == full;
  }

  /** Saving the same template twice is saving it once. */
  lemma {:induction false} SaveTemplateIdempotent(s: Store, id: string, name: string, items: seq<TemplateItem>)
    ensures SaveTemplate(SaveTemplate(s, id, name, items), id, name, items) == SaveTemplate(s, id, name, items)
  {
    if s.currentUser.Some? {
      var once := SaveTemplate(s, id, name, items);
      var full := TaskTemplate(id, s.currentUser.value.organizationId, name, items);
      var twice := SaveTemplate(once, id, name, items);
      assert twice.templates == once.templates;
    }
  }

  /** `deleteTemplate`: removes every template with that id, keeping the
      others in order. */
  function DeleteTemplate(s: Store, id: string): (r: Store)
    ensures r == s.(templates := r.templates)
    ensures Selects(r.templates, s.templates, (t: TaskTemplate) => t.id != id)
  {
    FilterSelects(s.templates, (t: TaskTemplate) => t.id != id);
    s.(templates := Filter(s.templates, (t: TaskTemplate) => t.id != id))
  }

  /** After a delete, no template with that id can be found. */
  lemma {:induction false} DeleteThenFind(s: Store, id: string)
    ensures FindTemplate(DeleteTemplate(s, id).templates, id).None?
  {
  }
}

=== FILE: ids.dfy ===
/** Sequential task ids (`getNextId`): the largest id that parses as a number,
    plus one plus a batch offset, zero-padded to four digits. The scan covers
    the whole task list, across all tenants. */
module Ids {
  import opened Types
  import opened Text

  /** The largest task id that `parseInt` reads as a number, or 0 when no id
      parses. */
  function MaxId(items: seq<Task>): (m: nat)
    ensures forall i :: 0 <= i < |items| && ParseLeadingNat(items[i].id).Some? ==>
              ParseLeadingNat(items[i].id).value <= m
    ensures m == 0 || exists i :: 0 <= i < |items| && ParseLeadingNat(items[i].id) == Some(m)
  {
    if |items| == 0 then 0
    else
      var rest := MaxId(items[1..]);
      assert forall i :: 1 <= i < |items| ==> items[1..][i - 1] == items[i];
      match ParseLeadingNat(items[0].id)
      case None => rest
      case Some(v) => if v > rest then v else rest
  }

  /** The id text of a number: its decimal text left-padded with zeros to
      four characters; the full decimal text is kept, so ids from 10000 on
      are never truncated. */
  function IdText(n: nat): (r: string)
    ensures |r| == if |Decimal(n)| >= 4 then |Decimal(n)| else 4
    ensures r[|r| - |Decimal(n)|..] == Decimal(n)
    ensures forall i :: 0 <= i < |r| - |Decimal(n)| ==> r[i] == '0'
    ensures ParseLeadingNat(r) == Some(n)
  {
    PaddedDecimalParses(n, 4);
    PadStart(Decimal(n), 4, '0')
  }

  /** The id of entry `offset` of a batch: the largest numeric id of the
      list plus one plus the offset, as an id text. */
  function NextId(items: seq<Task>, offset: nat): (r: string)
    ensures ParseLeadingNat(r) == Some(MaxId(items) + 1 + offset)
    ensures |r| >= 4
    ensures forall i :: 0 <= i < |items| ==> items[i].id != r
  {
    var r := IdText(MaxId(items) + 1 + offset);
    assert forall i :: 0 <= i < |items| ==> items[i].id != r by {
      forall i | 0 <= i < |items|
        ensures items[i].id != r
      {
        if items[i].id == r {
          assert false;
        }
      }
    }
    r
  }

  /** Two offsets of one batch never produce the same id. */
  lemma {:induction false} NextIdInjective(items: seq<Task>, a: nat, b: nat)
    requires a != b
    ensures NextId(items, a) != NextId(items, b)
  {
  }
}

=== FILE: routes.dfy ===
/** Role-based routing: the default route of each role, the table of which
    roles a protected page admits, the redirect a protected page issues, and
    the decision for every path. */
module Routes {
  import opened Types

  datatype Page = LoginPage | SuperAdminPanel | AdminPanel | AnalystPanel | ReportView

  datatype Decision = Show(page: Page) | Redirect(to: string)

  /** The home of each role, and the login page for nobody. */
  function DefaultRoute(user: Option<User>): (r: string)
    ensures user.None? ==> r == "/login"
    ensures user.Some? && user.value.role == SuperAdmin ==> r == "/superadmin"
    ensures user.Some? && user.value.role == Admin ==> r == "/admin"
    ensures user.Some? && user.value.role == Analyst ==> r == "/checklist"
  {
    if user.None? then "/login"
    else match user.value.role
      case SuperAdmin => "/superadmin"
      case Admin => "/admin"
      case _ => "/checklist"
  }

  // ---------------------------------------------------------------------
  // Path matching. A route path matches a location ignoring ASCII case and
  // any number of trailing slashes, as React Router's default (not
  // case-sensitive, not strict) matching does.

  function LowerChar(c: char): (r: char)
    ensures !('A' <= r <= 'Z')
    ensures !('A' <= c <= 'Z') ==> r == c
  {
    if 'A' <= c <= 'Z' then (c as int + 32) as char else c
  }

  function Lower(s: string): (r: string)
    ensures |r| == |s|
    ensures forall i :: 0 <= i < |s| ==> r[i] == LowerChar(s[i])
  {
    if |s| == 0 then [] else [LowerChar(s[0])] + Lower(s[1..])
  }

  /** The path without its trailing slashes. */
  function TrimSlashes(s: string): (r: string)
    ensures r <= s
    ensures |r| == 0 || r[|r| - 1] != '/'
    ensures forall i :: |r| <= i < |s| ==> s[i] == '/'
  {
    if |s| > 0 && s[|s| - 1] == '/' then TrimSlashes(s[..|s| - 1]) else s
  }

  /** The form in which a location is compared with the route paths. */
  function RoutePath(path: string): string {
    TrimSlashes(Lower(path))
  }

  /** A lower-case path without a trailing slash. */
  predicate Canonical(s: string) {
    (forall i :: 0 <= i < |s| ==> !('A' <= s[i] <= 'Z')) && (|s| == 0 || s[|s| - 1] != '/')
  }

  /** A canonical path is compared as it is; every path is compared in
      canonical form. */
  lemma {:induction false} RoutePathCanonical(path: string)
    ensures Canonical(RoutePath(path))
    ensures Canonical(path) ==> RoutePath(path) == path
  {
    var l := Lower(path);
    var r := TrimSlashes(l);
    assert forall i :: 0 <= i < |r| ==> r[i] == l[i];
    if Canonical(path) {
      assert l == path;
    }
  }

  /** The route paths of the table are canonical. */
  lemma {:induction false} TablePathsCanonical()
    ensures Canonical("/login") && Canonical("/superadmin") && Canonical("/admin")
    ensures Canonical("/checklist") && Canonical("/report")
  {
  }

  /** Neither a trailing slash nor letter case changes where a path
      leads: "/Admin/" leads where "/admin" does. */
  lemma {:induction false} RouteIgnoresCaseAndSlash(path: string, user: Option<User>)
    ensures Route(path + "/", user) == Route(path, user)
    ensures Route(Lower(path), user) == Route(path, user)
  {
    RoutePathSlash(path);
    RoutePathLower(path);
    SamePathSameRoute(path + "/", path, user);
    SamePathSameRoute(Lower(path), path, user);
  }

  lemma {:induction false} RoutePathSlash(path: string)
    ensures RoutePath(path + "/") == RoutePath(path)
  {
    var l := Lower(path);
    assert Lower(path + "/") == l + "/";
    assert (l + "/")[..|l|] == l;
  }

  lemma {:induction false} RoutePathLower(path: string)
    ensures RoutePath(Lower(path)) == RoutePath(path)
  {
    var l := Lower(path);
    assert Lower(l) == l;
  }

  /** Where a path leads depends on its compared form only. */
  lemma {:induction false} SamePathSameRoute(a: string, b: string, user: Option<User>)
    requires RoutePath(a) == RoutePath(b)
    ensures Route(a, user) == Route(b, user)
  {
  }

  /** The protected pages and the roles each admits. */
  function Protected(path: string): (r: Option<(Page, seq<Role>)>)
  {
    if path == "/superadmin" then Some((SuperAdminPanel, [SuperAdmin]))
    else if path == "/admin" then Some((AdminPanel, [Admin]))
    else if path == "/checklist" then Some((AnalystPanel, [Analyst]))
    else if path == "/report" then Some((ReportView, [Analyst]))
    else None
  }

  /** `ProtectedRoute`: nobody logged in goes to the login page; a role the
      page admits sees it; any other role is sent to its own home. */
  function Guard(page: Page, allowed: seq<Role>, user: Option<User>): (r: Decision)
    ensures user.None? ==> r == Redirect("/login")
    ensures user.Some? && user.value.role in allowed ==> r == Show(page)
    ensures user.Some? && user.value.role !in allowed ==> r == Redirect(DefaultRoute(user))
  {
    if user.None? then Redirect("/login")
    else if user.value.role in allowed then Show(page)
    else match user.value.role
      case SuperAdmin => Redirect("/superadmin")
      case Admin => Redirect("/admin")
      case Analyst => Redirect("/checklist")
  }

  /** The route table: "/login" shows the login page to nobody logged in
      and sends a user home; the protected pages are guarded; any other
      path goes to "/login". */
  function Route(path: string, user: Option<User>): (r: Decision)
    ensures RoutePath(path) == "/login" && user.None? ==> r == Show(LoginPage)
    ensures RoutePath(path) == "/login" && user.Some? ==> r == Redirect(DefaultRoute(user))
    ensures RoutePath(path) != "/login" && Protected(RoutePath(path)).None? ==> r == Redirect("/login")
    ensures Protected(RoutePath(path)).Some? ==>
              r == Guard(Protected(RoutePath(path)).value.0, Protected(RoutePath(path)).value.1, user)
  {
    var p := RoutePath(path);
    if p == "/login" then
      if user.None? then Show(LoginPage) else Redirect(DefaultRoute(user))
    else match Protected(p)
      case None => Redirect("/login")
      case Some((page, allowed)) => Guard(page, allowed, user)
  }

  /** Every role's home admits that role. */
  lemma {:induction false} HomeAdmitsRole(u: User)
    ensures Route(DefaultRoute(Some(u)), Some(u)).Show?
  {
    match u.role
    case SuperAdmin => ShownAt("/superadmin", u);
    case Admin => ShownAt("/admin", u);
    case Analyst => ShownAt("/checklist", u);
  }

  lemma {:induction false} ShownAt(path: string, u: User)
    requires Canonical(path)
    requires Protected(path).Some? && u.role in Protected(path).value.1
    ensures Route(path, Some(u)).Show?
  {
    RoutePathCanonical(path);
  }

  /** Routing settles: a logged-in user is shown a page after at most two
      redirects (an unknown path goes to "/login", which goes home), and
      nobody logged in reaches the login page after at most one. */
  lemma {:induction false} RoutingSettles(path: string, user: Option<User>)
    ensures var d := Route(path, user);
            d.Show? || (var d1 := Route(d.to, user); d1.Show? || Route(d1.to, user).Show?)
    ensures user.None? ==> Route(path, user).Show? || Route(path, user) == Redirect("/login")
  {
    RedirectTargets(path, user);
    LoginRoute(user);
    if user.Some? {
      HomeAdmitsRole(user.value);
    }
  }

  /** Every redirect goes to the login page or to the user's home. */
  lemma {:induction false} RedirectTargets(path: string, user: Option<User>)
    ensures Route(path, user).Redirect? ==>
              Route(path, user).to == "/login" || Route(path, user).to == DefaultRoute(user)
  {
  }

  /** "/login" itself: the login page for nobody, home for a user. */
  lemma {:induction false} LoginRoute(user: Option<User>)
    ensures user.None? ==> Route("/login", user) == Show(LoginPage)
    ensures user.Some? ==> Route("/login", user) == Redirect(DefaultRoute(user))
  {
    TablePathsCanonical();
    RoutePathCanonical("/login");
  }

  /** The checklist and the report admit analysts only. */
  lemma {:induction false} AnalystOnlyPages(path: string, u: User)
    requires RoutePath(path) == "/checklist" || RoutePath(path) == "/report"
    ensures Route(path, Some(u)).Show? <==> u.role == Analyst
  {
  }

  /** A user is shown a protected page exactly when the table admits their
      role; otherwise they are sent home, never to a page they are refused. */
  lemma {:induction false} ProtectedDecision(path: string, u: User)
    requires Protected(RoutePath(path)).Some?
    ensures Route(path, Some(u)).Show? <==> u.role in Protected(RoutePath(path)).value.1
    ensures !Route(path, Some(u)).Show? ==> Route(path, Some(u)) == Redirect(DefaultRoute(Some(u)))
  {
    var p := RoutePath(path);
    assert p != "/login";
  }
}

=== FILE: scheduler.dfy ===
/** Batch task generation: one task per day of an inclusive date range
    (`createTaskRange`), one task per template item per day
    (`assignTemplateToUser`), and the numbering of a finished batch against
    the task list as it was before the batch. Days are day numbers; the
    deadline text of a day is its date text, a 'T' and a time of day. The
    rendering of a day as a date text is the parameter `dateText`, so that
    the expansion is stated once for any calendar; the store instantiates it
    with `Text.DateText`. */
module Scheduler {
  import opened Types
  import opened Text
  import opened Ids

  /** How many times `while (current <= end)` runs when `current` starts at
      `startDay` and steps one day at a time. */
  function Days(startDay: int, endDay: int): (n: nat)
    ensures startDay <= endDay ==> n == endDay - startDay + 1
    ensures endDay < startDay ==> n == 0
  {
    if endDay < startDay then 0 else endDay - startDay + 1
  }

  /** The task `createTaskRange` pushes for `day`: the base fields, the
      caller's organization, the day's deadline, pending, not yet numbered. */
  function RangeTask(base: TaskBase, org: string, time: string, day: int, now: string, dateText: int -> string): (t: Task)
    ensures CarriesBase(t, base)
  {
    Task("", org, base.title, base.description, base.category, base.priority,
         base.assignedTo, Stamp(dateText(day), time), Pending, base.notes, base.completedAt, now)
  }

  /** The loop of `createTaskRange`: one task per day from `startDay` to
      `endDay`, in increasing date order. */
  method ExpandRange(base: TaskBase, org: string, time: string, startDay: int, endDay: int, now: string, dateText: int -> string)
    returns (batch: seq<Task>)
    ensures |batch| == Days(startDay, endDay)
    ensures forall i :: 0 <= i < |batch| ==>
              && CarriesBase(batch[i], base)
              && batch[i].organizationId == org
              && batch[i].deadline == Stamp(dateText(startDay + i), time)
              && batch[i].status == Pending
              && batch[i].createdAt == now
              && batch[i].id == ""
  {
    batch := [];
    var current := startDay;
    while current <= endDay
      invariant current == startDay + |batch|
      invariant |batch| == 0 || current <= endDay + 1
      invariant forall i :: 0 <= i < |batch| ==> batch[i] == RangeTask(base, org, time, startDay + i, now, dateText)
    {
      batch := batch + [RangeTask(base, org, time, current, now, dateText)];
      current := current + 1;
    }
  }

  /** The task `assignTemplateToUser` pushes for one item on one day. */
  function ItemTask(item: TemplateItem, userId: string, org: string, day: int, now: string, dateText: int -> string): Task
  {
    Task("", org, item.title, item.description, item.category, item.priority,
         userId, Stamp(dateText(day), item.timeOffset), Pending, None, None, now)
  }

  /** A template task is the item's texts and priority, assigned to the
      chosen user in the caller's organization, due on that day at the item's
      time of day, pending, with no notes, no completion time and no id yet. */
  lemma {:induction false} ItemTaskFields(item: TemplateItem, userId: string, org: string, day: int,
                                          now: string, dateText: int -> string)
    ensures var t := ItemTask(item, userId, org, day, now, dateText);
            && t.title == item.title && t.description == item.description
            && t.category == item.category && t.priority == item.priority
            && t.assignedTo == userId && t.organizationId == org
            && t.deadline == Stamp(dateText(day), item.timeOffset)
            && t.status == Pending && t.notes.None? && t.completedAt.None?
            && t.id == "" && t.createdAt == now
  {
  }

  /** The tasks of one day: one per item, in item order. */
  function DayBatch(items: seq<TemplateItem>, userId: string, org: string, day: int, now: string, dateText: int -> string): (r: seq<Task>)
    ensures |r| == |items|
    ensures forall k :: 0 <= k < |items| ==> r[k] == ItemTask(items[k], userId, org, day, now, dateText)
  {
    seq(|items|, k requires 0 <= k < |items| => ItemTask(items[k], userId, org, day, now, dateText))
  }

  /** Reference definition of a template batch over `n` days: the first
      `n - 1` days, then the items of the last day. */
  function TemplateBatch(items: seq<TemplateItem>, userId: string, org: string,
                         startDay: int, n: nat, now: string, dateText: int -> string): seq<Task>
  {
    if n == 0 then []
    else TemplateBatch(items, userId, org, startDay, n - 1, now, dateText)
         + DayBatch(items, userId, org, startDay + n - 1, now, dateText)
  }

  lemma {:induction false} TemplateBatchLength(items: seq<TemplateItem>, userId: string, org: string,
                                               startDay: int, n: nat, now: string, dateText: int -> string)
    ensures |TemplateBatch(items, userId, org, startDay, n, now, dateText)| == n * |items|
  {
    if n > 0 {
      TemplateBatchLength(items, userId, org, startDay, n - 1, now, dateText);
    }
  }

  lemma {:induction false} MulMonotone(a: int, b: int, k: nat)
    requires a <= b
    ensures a * k <= b * k
  {
    assert b * k - a * k == (b - a) * k;
  }

  /** A batch over fewer days is a prefix of a batch over more. */
  lemma {:induction false} TemplateBatchPrefix(items: seq<TemplateItem>, userId: string, org: string,
                                               startDay: int, m: nat, n: nat, now: string, dateText: int -> string)
    requires m <= n
    ensures var short := TemplateBatch(items, userId, org, startDay, m, now, dateText);
            var long := TemplateBatch(items, userId, org, startDay, n, now, dateText);
            |short| <= |long| && long[..|short|] == short
  {
    if m < n {
      TemplateBatchPrefix(items, userId, org, startDay, m, n - 1, now, dateText);
      var short := TemplateBatch(items, userId, org, startDay, m, now, dateText);
      var front := TemplateBatch(items, userId, org, startDay, n - 1, now, dateText);
      var long := front + DayBatch(items, userId, org, startDay + n - 1, now, dateText);
      assert TemplateBatch(items, userId, org, startDay, n, now, dateText) == long;
      assert long[..|short|] == front[..|short|];
    }
  }

  lemma {:induction false} PrefixIndex(long: seq<Task>, short: seq<Task>, at: int)
    requires |short| <= |long| && long[..|short|] == short && 0 <= at < |short|
    ensures long[at] == short[at]
  {
    assert long[..|short|][at] == long[at];
  }

  /** Item `j` of day `q` follows the batch of the `q` days before it. */
  lemma {:induction false} TemplateBatchAt(items: seq<TemplateItem>, userId: string, org: string,
                                           startDay: int, n: nat, now: string, dateText: int -> string,
                                           q: nat, j: nat)
    requires q < n && j < |items|
    ensures var at := |TemplateBatch(items, userId, org, startDay, q, now, dateText)| + j;
            && at < |TemplateBatch(items, userId, org, startDay, n, now, dateText)|
            && TemplateBatch(items, userId, org, startDay, n, now, dateText)[at]
                 == DayBatch(items, userId, org, startDay + q, now, dateText)[j]
  {
    TemplateBatchPrefix(items, userId, org, startDay, q + 1, n, now, dateText);
    var before := TemplateBatch(items, userId, org, startDay, q, now, dateText);
    var upTo := TemplateBatch(items, userId, org, startDay, q + 1, now, dateText);
    var long := TemplateBatch(items, userId, org, startDay, n, now, dateText);
    var day := DayBatch(items, userId, org, startDay + q, now, dateText);
    assert upTo == before + day;
    PrefixIndex(long, upTo, |before| + j);
  }

  /** The day and the item of index `i` in a batch of `n` days. */
  lemma {:induction false} DayAndItem(i: int, k: nat, n: nat) returns (q: nat, j: nat)
    requires 0 <= i < n * k
    ensures q == i / k && j == i % k && q < n && j < k && i == q * k + j
  {
    q, j := i / k, i % k;
    if q >= n {
      MulMonotone(n, q, k);
    }
  }

  /** One entry of a template batch: index `i` is item `i % |items|` of day
      `i / |items|`. */
  lemma {:induction false} TemplateBatchEntry(items: seq<TemplateItem>, userId: string, org: string,
                                              startDay: int, n: nat, now: string, dateText: int -> string,
                                              i: int)
    requires 0 <= i < n * |items|
    ensures |TemplateBatch(items, userId, org, startDay, n, now, dateText)| == n * |items|
    ensures TemplateBatch(items, userId, org, startDay, n, now, dateText)[i]
              == ItemTask(items[i % |items|], userId, org, startDay + i / |items|, now, dateText)
  {
    TemplateBatchLength(items, userId, org, startDay, n, now, dateText);
    var q, j := DayAndItem(i, |items|, n);
    TemplateBatchLength(items, userId, org, startDay, q, now, dateText);
    TemplateBatchAt(items, userId, org, startDay, n, now, dateText, q, j);
  }

  /** Day-major, item-minor order: entry `i` of a template batch is item
      `i % K` on day `startDay + i / K`, where K is the number of items. */
  lemma {:induction false} TemplateBatchOrder(items: seq<TemplateItem>, userId: string, org: string,
                                              startDay: int, n: nat, now: string, dateText: int -> string)
    ensures |TemplateBatch(items, userId, org, startDay, n, now, dateText)| == n * |items|
    ensures forall i :: 0 <= i < n * |items| ==>
              TemplateBatch(items, userId, org, startDay, n, now, dateText)[i]
                == ItemTask(items[i % |items|], userId, org, startDay + i / |items|, now, dateText)
  {
    TemplateBatchLength(items, userId, org, startDay, n, now, dateText);
    forall i | 0 <= i < n * |items|
      ensures TemplateBatch(items, userId, org, startDay, n, now, dateText)[i]
                == ItemTask(items[i % |items|], userId, org, startDay + i / |items|, now, dateText)
    {
      TemplateBatchEntry(items, userId, org, startDay, n, now, dateText, i);
    }
  }

  /** The inner loop of `assignTemplateToUser`: one task per template item
      for `day`, in item order. */
  method ExpandDay(items: seq<TemplateItem>, userId: string, org: string, day: int,
                   now: string, dateText: int -> string)
    returns (tasks: seq<Task>)
    ensures tasks == DayBatch(items, userId, org, day, now, dateText)
  {
    ghost var want := DayBatch(items, userId, org, day, now, dateText);
    tasks := [];
    var k := 0;
    while k < |items|
      invariant 0 <= k <= |items|
      invariant tasks == want[..k]
    {
      assert want[..k + 1] == want[..k] + [want[k]];
      tasks := tasks + [ItemTask(items[k], userId, org, day, now, dateText)];
      k := k + 1;
    }
    assert want[..k] == want;
  }

  /** The nested loops of `assignTemplateToUser`: for each day of the range,
      one task per template item. */
  method ExpandTemplate(items: seq<TemplateItem>, userId: string, org: string,
                        startDay: int, endDay: int, now: string, dateText: int -> string)
    returns (batch: seq<Task>)
    ensures batch == TemplateBatch(items, userId, org, startDay, Days(startDay, endDay), now, dateText)
  {
    batch := [];
    var d: nat := 0;
    var current := startDay;
    while current <= endDay
      invariant current == startDay + d && d <= Days(startDay, endDay)
      invariant batch == TemplateBatch(items, userId, org, startDay, d, now, dateText)
    {
      var tasks := ExpandDay(items, userId, org, current, now, dateText);
      TemplateBatchStep(items, userId, org, startDay, d, now, dateText);
      batch := batch + tasks;
      d := d + 1;
      current := current + 1;
    }
    assert d == Days(startDay, endDay);
  }

  /** One more day appends that day's tasks. */
  lemma {:induction false} TemplateBatchStep(items: seq<TemplateItem>, userId: string, org: string,
                                             startDay: int, d: nat, now: string, dateText: int -> string)
    ensures TemplateBatch(items, userId, org, startDay, d + 1, now, dateText)
              == TemplateBatch(items, userId, org, startDay, d, now, dateText)
                 + DayBatch(items, userId, org, startDay + d, now, dateText)
  {
  }

  /** Every entry of `batch` is numbered past the largest id of `prev`, in
      generation order, and no id repeats within the batch or against
      `prev`. */
  ghost predicate FreshlyNumbered(batch: seq<Task>, prev: seq<Task>) {
    && (forall i :: 0 <= i < |batch| ==> ParseLeadingNat(batch[i].id) == Some(MaxId(prev) + 1 + i))
    && (forall i, j :: 0 <= i < j < |batch| ==> batch[i].id != batch[j].id)
    && (forall i, j :: 0 <= i < |batch| && 0 <= j < |prev| ==> batch[i].id != prev[j].id)
  }

  /** Numbering a batch against the list it is put in front of: only the
      ids change, and they run M+1, M+2, ... from the largest id M of the
      list before the batch. */
  function NumberBatch(batch: seq<Task>, prev: seq<Task>): (r: seq<Task>)
    ensures |r| == |batch|
    ensures forall i :: 0 <= i < |r| ==> r[i] == batch[i].(id := r[i].id)
    ensures forall i :: 0 <= i < |r| ==> r[i].id == NextId(prev, i)
    ensures FreshlyNumbered(r, prev)
  {
    var r := seq(|batch|, i requires 0 <= i < |batch| => batch[i].(id := NextId(prev, i)));
    NumberedFresh(r, prev);
    r
  }

  /** A batch whose entry `i` carries `NextId(prev, i)` is freshly numbered. */
  lemma {:induction false} NumberedFresh(r: seq<Task>, prev: seq<Task>)
    requires forall i :: 0 <= i < |r| ==> r[i].id == NextId(prev, i)
    ensures FreshlyNumbered(r, prev)
  {
    forall i | 0 <= i < |r|
      ensures ParseLeadingNat(r[i].id) == Some(MaxId(prev) + 1 + i)
    {
      NextIdParses(prev, i, r[i].id);
    }
    NumberedDistinct(r, prev);
    NumberedPastPrev(r, prev);
  }

  lemma {:induction false} NextIdParses(prev: seq<Task>, i: nat, id: string)
    requires id == NextId(prev, i)
    ensures ParseLeadingNat(id) == Some(MaxId(prev) + 1 + i)
  {
    var n := MaxId(prev) + 1 + i;
    assert id == IdText(n);
  }

  lemma {:induction false} NumberedDistinct(r: seq<Task>, prev: seq<Task>)
    requires forall i :: 0 <= i < |r| ==> r[i].id == NextId(prev, i)
    ensures forall i, j :: 0 <= i < j < |r| ==> r[i].id != r[j].id
  {
    forall i, j | 0 <= i < j < |r|
      ensures r[i].id != r[j].id
    {
      NextIdInjective(prev, i, j);
    }
  }

  lemma {:induction false} NumberedPastPrev(r: seq<Task>, prev: seq<Task>)
    requires forall i :: 0 <= i < |r| ==> r[i].id == NextId(prev, i)
    ensures forall i, j :: 0 <= i < |r| && 0 <= j < |prev| ==> r[i].id != prev[j].id
  {
    forall i, j | 0 <= i < |r| && 0 <= j < |prev|
      ensures r[i].id != prev[j].id
    {
      assert r[i].id == NextId(prev, i);
    }
  }
}

=== FILE: seed.dfy ===
/** The fixed data set the store starts from when nothing has been saved:
    two tenants, a super-admin plus an admin and an analyst per tenant, one
    pending task per tenant, and the names of the storage keys. The clock
    readings the seed takes are parameters: `now` is the ISO instant of
    start-up and `today` its date part. */
module Seed {
  import opened Types
  import opened Text
  import opened Ids

  function MockOrgs(now: string): (r: seq<Organization>)
    ensures |r| == 2 && r[0].id == "org1" && r[1].id == "org2"
    ensures forall i :: 0 <= i < |r| ==> r[i].isActive
  {
    [ Organization("org1", "Log\U{00ED}stica Internacional S.A.", now, true),
      Organization("org2", "Servicios Navide\U{00F1}os Ltd.", now, true) ]
  }

  function MockUsers(): seq<User> {
    [ User("su1", "system", "superadmin", "Super Usuario Sistema", SuperAdmin, Some("master123")),
      User("u1", "org1", "admin_logistica", "Gerente Log\U{00ED}stica", Admin, Some("123456")),
      User("u2", "org1", "analista_logistica", "Juan P\U{00E9}rez", Analyst, Some("user")),
      User("u3", "org2", "admin_navidad", "Santa Admin", Admin, Some("123456")),
      User("u4", "org2", "elfo_jefe", "Elfo Operativo", Analyst, Some("user")) ]
  }

  function MockTasks(today: string, now: string): seq<Task> {
    [ Task("0001", "org1", "Revisar aduanas",
           "Verificar documentaci\U{00F3}n de contenedores entrantes.", "Aduanas",
           High, "u2", Stamp(today, "10:00"), Pending, None, None, now),
      Task("0002", "org2", "Inventario de Juguetes",
           "Contar stock en almac\U{00E9}n norte.", "Inventario",
           Critical, "u4", Stamp(today, "12:00"), Pending, None, None, now) ]
  }

  /** The storage keys, one per persisted collection or setting. */
  datatype StorageKey = OrgsKey | UsersKey | TasksKey | TemplatesKey
                      | ThemeModeKey | ChristmasEnabledKey | DarkModeKey | ApiKeyKey

  function KeyName(k: StorageKey): string {
    match k
    case OrgsKey => "app_orgs"
    case UsersKey => "app_users"
    case TasksKey => "app_tasks"
    case TemplatesKey => "app_templates"
    case ThemeModeKey => "app_theme_mode"
    case ChristmasEnabledKey => "app_christmas_enabled"
    case DarkModeKey => "app_dark_mode"
    case ApiKeyKey => "app_gemini_key"
  }

  /** The key under which the logged-in user is kept between reloads. */
  const SessionKey: string := "app_current_user"

  /** Distinct settings never overwrite each other in storage, and the session
      has a key of its own. */
  lemma {:induction false} StorageKeysDistinct(a: StorageKey, b: StorageKey)
    ensures a != b ==> KeyName(a) != KeyName(b)
    ensures KeyName(a) != SessionKey
  {
  }

  /** A one-digit id is padded with three zeros. */
  lemma {:induction false} OneDigitIdText(n: nat)
    requires n < 10
    ensures IdText(n) == ['0', '0', '0', DigitChar(n)]
  {
    assert Decimal(n) == [DigitChar(n)];
    assert Repeat('0', 3) == "000";
  }

  lemma {:induction false} SmallIdTexts()
    ensures IdText(1) == "0001" && IdText(2) == "0002" && IdText(3) == "0003"
  {
    OneDigitIdText(1);
    OneDigitIdText(2);
    OneDigitIdText(3);
  }

  /** The seed tasks are numbered 0001 and 0002, so the first task created
      over the seed is numbered 0003. */
  lemma {:induction false} SeedNextId(today: string, now: string)
    ensures MaxId(MockTasks(today, now)) == 2
    ensures NextId(MockTasks(today, now), 0) == "0003"
  {
    var ts := MockTasks(today, now);
    SmallIdTexts();
    assert ParseLeadingNat(ts[0].id) == Some(1);
    assert ParseLeadingNat(ts[1].id) == Some(2);
    assert MaxId(ts[1..][1..]) == 0;
    assert MaxId(ts[1..]) == 2;
  }

  /** Each seed task is assigned to a user of its own tenant (u2 in org1, u4
      in org2). */
  lemma {:induction false} SeedAssigneesInTenant(today: string, now: string)
    ensures forall t, u :: t in MockTasks(today, now) && u in MockUsers() && u.id == t.assignedTo ==>
              u.organizationId == t.organizationId
  {
  }

  /** Every seed user except the super-admin belongs to a seed tenant; the
      only super-admin carries the sentinel "system", which is no tenant. */
  lemma {:induction false} SeedUsersBelongToTenants(now: string)
    ensures forall u :: u in MockUsers() && u.role != SuperAdmin ==>
              exists o :: o in MockOrgs(now) && o.id == u.organizationId
    ensures forall u :: u in MockUsers() && u.role == SuperAdmin ==> u == MockUsers()[0]
    ensures MockUsers()[0].organizationId == "system"
    ensures forall o :: o in MockOrgs(now) ==> o.id != "system"
  {
    var orgs := MockOrgs(now);
    assert orgs[0] in orgs && orgs[1] in orgs;
  }

  /** Seed usernames and seed user ids are pairwise distinct. */
  lemma {:induction false} SeedUsersDistinct()
    ensures forall i, j :: 0 <= i < j < |MockUsers()| ==> MockUsers()[i].username != MockUsers()[j].username
    ensures forall i, j :: 0 <= i < j < |MockUsers()| ==> MockUsers()[i].id != MockUsers()[j].id
  {
  }

  /** The seed tasks start pending, with no completion time. */
  lemma {:induction false} SeedTasksPending(today: string, now: string)
    ensures forall t :: t in MockTasks(today, now) ==> t.status == Pending && t.completedAt.None?
  {
  }
}

=== FILE: seqs.dfy ===
/** Order-preserving sequence helpers shared by the store, its tenant views and
    the pages: `Array.prototype.filter` and `Array.prototype.map` over immutable
    sequences, with the facts every caller relies on stated once. */
module Seqs {

  /** `a` can be obtained from `b` by deleting elements, keeping the order of
      the rest (greedy embedding, which is complete for subsequences). */
  predicate IsSubsequence<T(==)>(a: seq<T>, b: seq<T>)
    decreases |b|
  {
    if |a| == 0 then true
    else if |b| == 0 then false
    else if a[0] == b[0] then IsSubsequence(a[1..], b[1..])
    else IsSubsequence(a, b[1..])
  }

  /** `r` is exactly the part of `xs` that satisfies `p`: every such element
      with its full multiplicity, nothing else, in the original order. */
  ghost predicate Selects<T(!new)>(r: seq<T>, xs: seq<T>, p: T -> bool) {
    && IsSubsequence(r, xs)
    && (forall x :: x in r <==> x in xs && p(x))
    && (forall x :: multiset(r)[x] == if p(x) then multiset(xs)[x] else 0)
  }

  /** The elements of `xs` that satisfy `p`, in order. */
  function Filter<T>(xs: seq<T>, p: T -> bool): (r: seq<T>)
    ensures |r| <= |xs|
    ensures forall i :: 0 <= i < |r| ==> p(r[i])
  {
    if |xs| == 0 then []
    else if p(xs[0]) then [xs[0]] + Filter(xs[1..], p)
    else Filter(xs[1..], p)
  }

  /** `Filter` selects exactly the passing elements, and drops something
      exactly when some element fails. */
  lemma {:induction false} FilterSelects<T(!new)>(xs: seq<T>, p: T -> bool)
    ensures Selects(Filter(xs, p), xs, p)
    ensures |Filter(xs, p)| == |xs| <==> forall i :: 0 <= i < |xs| ==> p(xs[i])
  {
    FilterOrder(xs, p);
    FilterMembers(xs, p);
    FilterCounts(xs, p);
    FilterLength(xs, p);
  }

  lemma {:induction false} FilterOrder<T>(xs: seq<T>, p: T -> bool)
    ensures IsSubsequence(Filter(xs, p), xs)
  {
    if |xs| > 0 {
      FilterOrder(xs[1..], p);
      var rest := Filter(xs[1..], p);
      if !p(xs[0]) && |rest| > 0 {
        assert p(rest[0]);
      }
    }
  }

  lemma {:induction false} FilterMembers<T>(xs: seq<T>, p: T -> bool)
    ensures forall x :: x in Filter(xs, p) <==> x in xs && p(x)
  {
    if |xs| > 0 {
      assert xs == [xs[0]] + xs[1..];
      FilterMembers(xs[1..], p);
    }
  }

  lemma {:induction false} FilterCounts<T>(xs: seq<T>, p: T -> bool)
    ensures forall x :: multiset(Filter(xs, p))[x] == if p(x) then multiset(xs)[x] else 0
  {
    if |xs| > 0 {
      assert xs == [xs[0]] + xs[1..];
      FilterCounts(xs[1..], p);
    }
  }

  lemma {:induction false} FilterLength<T>(xs: seq<T>, p: T -> bool)
    ensures |Filter(xs, p)| == |xs| <==> forall i :: 0 <= i < |xs| ==> p(xs[i])
  {
    if |xs| > 0 {
      FilterLength(xs[1..], p);
      assert forall i :: 1 <= i < |xs| ==> xs[1..][i - 1] == xs[i];
    }
  }

  /** Filtering distributes over concatenation. */
  lemma {:induction false} FilterConcat<T>(xs: seq<T>, ys: seq<T>, p: T -> bool)
    ensures Filter(xs + ys, p) == Filter(xs, p) + Filter(ys, p)
  {
    if |xs| > 0 {
      assert (xs + ys)[0] == xs[0];
      assert (xs + ys)[1..] == xs[1..] + ys;
      FilterConcat(xs[1..], ys, p);
    } else {
      assert xs + ys == ys;
    }
  }

  /** Filtering out every element leaves nothing. */
  lemma {:induction false} FilterNone<T>(xs: seq<T>, p: T -> bool)
    requires forall i :: 0 <= i < |xs| ==> !p(xs[i])
    ensures Filter(xs, p) == []
  {
    if |xs| > 0 {
      FilterNone(xs[1..], p);
    }
  }

  /** Filtering keeps a list whole when every element passes. */
  lemma {:induction false} FilterKeepsAll<T(!new)>(xs: seq<T>, p: T -> bool)
    requires forall i :: 0 <= i < |xs| ==> p(xs[i])
    ensures Filter(xs, p) == xs
  {
    if |xs| > 0 {
      FilterKeepsAll(xs[1..], p);
    }
  }

  /** Filtering an appended element appends it when it passes. */
  lemma {:induction false} FilterAppend<T(!new)>(xs: seq<T>, x: T, p: T -> bool)
    ensures Filter(xs + [x], p) == Filter(xs, p) + (if p(x) then [x] else [])
  {
    if |xs| == 0 {
      assert xs + [x] == [x];
      assert [x][1..] == [];
    } else {
      var ys := xs + [x];
      assert ys[0] == xs[0];
      assert ys[1..] == xs[1..] + [x];
      FilterAppend(xs[1..], x, p);
      var head := if p(xs[0]) then [xs[0]] else [];
      calc {
        Filter(ys, p);
        head + Filter(xs[1..] + [x], p);
        head + (Filter(xs[1..], p) + (if p(x) then [x] else []));
        (head + Filter(xs[1..], p)) + (if p(x) then [x] else []);
      }
    }
  }

  /** Every element of `xs` passed through `f`, position by position. */
  function Map<A, B>(f: A -> B, xs: seq<A>): (r: seq<B>)
    ensures |r| == |xs|
    ensures forall i :: 0 <= i < |xs| ==> r[i] == f(xs[i])
  {
    if |xs| == 0 then [] else [f(xs[0])] + Map(f, xs[1..])
  }
}

=== FILE: store.dfy ===
/** The raw, unfiltered store: the four collections every tenant shares, the
    display settings and the logged-in user, together with how the store is
    read back from durable storage at start-up and written on every change.
    Storage is a record of already-decoded entries; JSON text is not modelled. */
module DataStore {
  import opened Types
  import opened Seed

  datatype Settings = Settings(
    themeMode: ThemeMode,
    christmasEnabled: bool,
    darkMode: bool,
    apiKey: string)

  datatype Store = Store(
    orgs: seq<Organization>,
    users: seq<User>,
    tasks: seq<Task>,
    templates: seq<TaskTemplate>,
    currentUser: Option<User>,
    settings: Settings)

  /** Durable storage, one entry per key. `None` stands for a missing entry
      (an empty text reads the same way for the collections). */
  datatype Saved = Saved(
    orgs: Option<seq<Organization>>,
    users: Option<seq<User>>,
    tasks: Option<seq<Task>>,
    templates: Option<seq<TaskTemplate>>,
    themeMode: Option<string>,
    christmasEnabled: Option<string>,
    darkMode: Option<string>,
    apiKey: Option<string>)

  const NothingSaved := Saved(None, None, None, None, None, None, None, None)

  /** A flag as it is stored: "true" or "false". */
  function BoolText(b: bool): string {
    if b then "true" else "false"
  }

  function OrElse<T>(o: Option<T>, default: T): T {
    if o.Some? then o.value else default
  }

  /** The first non-empty one of two optional texts, or the empty text. */
  function FirstNonEmpty(a: Option<string>, b: Option<string>): string {
    if a.Some? && a.value != "" then a.value
    else if b.Some? && b.value != "" then b.value
    else ""
  }

  /** The stored theme: Christmas when the text names it, normal otherwise. */
  function ReadThemeMode(saved: Option<string>): ThemeMode {
    if saved == Some("christmas") then Christmas else Normal
  }

  /** The store at start-up: every collection comes from storage or, when
      absent, from the seed (templates start empty); the settings are read
      back from their texts; nobody is logged in. `env` is the API key of the
      build environment. */
  function Load(saved: Saved, env: Option<string>, today: string, now: string): (s: Store)
    ensures s.currentUser.None?
    ensures saved.orgs.Some? ==> s.orgs == saved.orgs.value
    ensures saved.orgs.None? ==> s.orgs == MockOrgs(now)
    ensures saved.users.Some? ==> s.users == saved.users.value
    ensures saved.users.None? ==> s.users == MockUsers()
    ensures saved.tasks.Some? ==> s.tasks == saved.tasks.value
    ensures saved.tasks.None? ==> s.tasks == MockTasks(today, now)
    ensures saved.templates.Some? ==> s.templates == saved.templates.value
    ensures saved.templates.None? ==> s.templates == []
    ensures s.settings.themeMode == Christmas <==> saved.themeMode == Some("christmas")
    ensures s.settings.christmasEnabled <==> saved.christmasEnabled == Some("true")
    ensures s.settings.darkMode <==> saved.darkMode == Some("true")
    ensures saved.apiKey.Some? && saved.apiKey.value != "" ==> s.settings.apiKey == saved.apiKey.value
    ensures !(saved.apiKey.Some? && saved.apiKey.value != "") ==> s.settings.apiKey == OrElse(env, "")
  {
    Store(
      OrElse(saved.orgs, MockOrgs(now)),
      OrElse(saved.users, MockUsers()),
      OrElse(saved.tasks, MockTasks(today, now)),
      OrElse(saved.templates, []),
      None,
      Settings(
        ReadThemeMode(saved.themeMode),
        saved.christmasEnabled == Some("true"),
        saved.darkMode == Some("true"),
        FirstNonEmpty(saved.apiKey, env)))
  }

  /** What the persistence effects leave in storage after the store reached
      state `s`: every collection and setting is written, except that an empty
      API key is not, so the previous entry stays. */
  function Persist(s: Store, before: Saved): (after: Saved)
    ensures after.tasks == Some(s.tasks) && after.users == Some(s.users)
    ensures after.orgs == Some(s.orgs) && after.templates == Some(s.templates)
    ensures s.settings.apiKey == "" ==> after.apiKey == before.apiKey
  {
    Saved(
      Some(s.orgs), Some(s.users), Some(s.tasks), Some(s.templates),
      Some(ThemeName(s.settings.themeMode)),
      Some(BoolText(s.settings.christmasEnabled)),
      Some(BoolText(s.settings.darkMode)),
      if s.settings.apiKey != "" then Some(s.settings.apiKey) else before.apiKey)
  }

  /** With nothing saved, the store starts from the seed data, with the
      default settings. */
  lemma {:induction false} LoadNothingSaved(env: Option<string>, today: string, now: string)
    ensures Load(NothingSaved, env, today, now) ==
      Store(MockOrgs(now), MockUsers(), MockTasks(today, now), [], None,
            Settings(Normal, false, false, FirstNonEmpty(None, env)))
  {
  }

  /** A reload gives back the persisted store, logged out, as long as its API
      key is not empty (an empty key is not written, and the reload would
      fall back to the previous or the environment key). */
  lemma {:induction false} LoadPersisted(s: Store, before: Saved, env: Option<string>, today: string, now: string)
    requires s.settings.apiKey != ""
    ensures Load(Persist(s, before), env, today, now) == s.(currentUser := None)
  {
  }

  /** The API key is the one store setting that can be lost: clearing it does
      not reach storage, so a reload brings back the previous key. */
  lemma {:induction false} ClearedApiKeyReturns(s: Store, before: Saved, env: Option<string>, today: string, now: string)
    requires s.settings.apiKey == "" && before.apiKey == Some("k")
    ensures Load(Persist(s, before), env, today, now).settings.apiKey == "k"
  {
  }
}

=== FILE: taskops.dfy ===
/** Task creation and the task life cycle on the raw task list: a single new
    task, a date-range batch, a template batch (each numbered against the
    list before it and prepended), and update, delete, status toggle and
    notes. Update, delete and toggle select tasks by id only: they do not
    check the caller's organization. */
module TaskOps {
  import opened Types
  import opened Seqs
  import opened Text
  import opened Ids
  import opened DataStore
  import opened TenantViews
  import opened Scheduler
  import opened Directory

  /** The record `addTask` builds: the base fields, then the id, the
      organization, PENDING and the creation time. */
  function NewTask(base: TaskBase, id: string, org: string, deadline: string, now: string): (t: Task)
    ensures CarriesBase(t, base) && t.id == id && t.organizationId == org
    ensures t.deadline == deadline && t.status == Pending && t.createdAt == now
  {
    Task(id, org, base.title, base.description, base.category, base.priority, base.assignedTo,
         deadline, Pending, base.notes, base.completedAt, now)
  }

  /** `addTask`: prepends one pending task, stamped with the caller's
      organization and numbered one past the largest id of the whole list;
      without a logged-in user nothing changes. */
  function AddTask(s: Store, base: TaskBase, deadline: string, now: string): (r: Store)
    ensures s.currentUser.None? ==> r == s
    ensures s.currentUser.Some? ==>
      && r == s.(tasks := r.tasks)
      && |r.tasks| == |s.tasks| + 1 && r.tasks[1..] == s.tasks
      && var t := r.tasks[0];
         && CarriesBase(t, base) && t.deadline == deadline
         && t.organizationId == s.currentUser.value.organizationId
         && t.status == Pending && t.createdAt == now
         && t.id == NextId(s.tasks, 0) && t !in s.tasks
  {
    if s.currentUser.None? then s
    else
      var id := NextId(s.tasks, 0);
      var t := NewTask(base, id, s.currentUser.value.organizationId, deadline, now);
      PrependFresh(t, s.tasks);
      s.(tasks := [t] + s.tasks)
  }

  /** Putting a task with an id no task has in front of a list. */
  lemma {:induction false} PrependFresh(t: Task, ts: seq<Task>)
    requires forall i :: 0 <= i < |ts| ==> ts[i].id != t.id
    ensures ([t] + ts)[0] == t && ([t] + ts)[1..] == ts && t !in ts
  {
    assert t !in ts by {
      forall i | 0 <= i < |ts| ensures ts[i] != t {
        assert ts[i].id != t.id;
      }
    }
  }

  /** A new task is seen by its own tenant, first in the list, and by no
      other tenant. */
  lemma {:induction false} AddTaskShowsInTenant(s: Store, base: TaskBase, deadline: string, now: string, viewer: User)
    requires s.currentUser.Some? && viewer.role != SuperAdmin
    ensures var r := AddTask(s, base, deadline, now);
            var before := Views(s.(currentUser := Some(viewer))).tasks;
            var after := Views(r.(currentUser := Some(viewer))).tasks;
            if viewer.organizationId == s.currentUser.value.organizationId
            then after == [r.tasks[0]] + before
            else after == before
  {
    var r := AddTask(s, base, deadline, now);
    FilterConcat([r.tasks[0]], s.tasks, (t: Task) => t.organizationId == viewer.organizationId);
  }

  /** The batch step shared by `createTaskRange` and `assignTemplateToUser`:
      number the batch against the list as it was, and put it in front. */
  function PrependBatch(batch: seq<Task>, prev: seq<Task>): (r: seq<Task>)
    ensures |r| == |batch| + |prev|
    ensures r[|batch|..] == prev
    ensures FreshlyNumbered(r[..|batch|], prev)
    ensures forall i :: 0 <= i < |batch| ==> r[i] == batch[i].(id := r[i].id)
    ensures forall i :: 0 <= i < |batch| ==> r[i].id == NextId(prev, i)
  {
    var numbered := NumberBatch(batch, prev);
    assert (numbered + prev)[..|batch|] == numbered;
    numbered + prev
  }

  /** `createTaskRange`: one task per day from `startDay` to `endDay`, in
      increasing date order, numbered M+1, M+2, ... and prepended; without a
      logged-in user nothing changes. */
  method CreateTaskRange(s: Store, base: TaskBase, time: string, startDay: int, endDay: int, now: string)
    returns (r: Store)
    ensures s.currentUser.None? ==> r == s
    ensures s.currentUser.Some? ==>
      var n := Days(startDay, endDay);
      && r == s.(tasks := r.tasks)
      && |r.tasks| == n + |s.tasks| && r.tasks[n..] == s.tasks
      && FreshlyNumbered(r.tasks[..n], s.tasks)
      && forall i :: 0 <= i < n ==>
           && r.tasks[i].id == NextId(s.tasks, i)
           && CarriesBase(r.tasks[i], base)
           && r.tasks[i].organizationId == s.currentUser.value.organizationId
           && r.tasks[i].deadline == Stamp(DateText(startDay + i), time)
           && r.tasks[i].status == Pending
           && r.tasks[i].createdAt == now
  {
    if s.currentUser.None? {
      return s;
    }
    var batch := ExpandRange(base, s.currentUser.value.organizationId, time, startDay, endDay, now, DateText);
    r := s.(tasks := PrependBatch(batch, s.tasks));
  }

  /** `assignTemplateToUser`: the template is looked up in the raw list of
      every tenant; the reference template batch of the range (one task per
      item per day, day-major and item-minor, see `TemplateBatchOrder`),
      assigned to `userId`, is numbered and prepended. Without
      a logged-in user or without such a template nothing changes. */
  method AssignTemplateToUser(s: Store, templateId: string, userId: string,
                              startDay: int, endDay: int, now: string)
    returns (r: Store)
    ensures s.currentUser.None? || FindTemplate(s.templates, templateId).None? ==> r == s
    ensures s.currentUser.Some? && FindTemplate(s.templates, templateId).Some? ==>
      var items := FindTemplate(s.templates, templateId).value.items;
      var org := s.currentUser.value.organizationId;
      var m := Days(startDay, endDay) * |items|;
      && r == s.(tasks := r.tasks)
      && |r.tasks| == m + |s.tasks| && r.tasks[m..] == s.tasks
      && FreshlyNumbered(r.tasks[..m], s.tasks)
      && (forall i :: 0 <= i < m ==> r.tasks[i].id == NextId(s.tasks, i))
      && |TemplateBatch(items, userId, org, startDay, Days(startDay, endDay), now, DateText)| == m
      && forall i :: 0 <= i < m ==>
           r.tasks[i] == TemplateBatch(items, userId, org, startDay, Days(startDay, endDay), now, DateText)[i]
                           .(id := r.tasks[i].id)
  {
    if s.currentUser.None? {
      return s;
    }
    var found := FindTemplate(s.templates, templateId);
    if found.None? {
      return s;
    }
    var batch := ExpandTemplate(found.value.items, userId, s.currentUser.value.organizationId,
                                startDay, endDay, now, DateText);
    TemplateBatchLength(found.value.items, userId, s.currentUser.value.organizationId,
                        startDay, Days(startDay, endDay), now, DateText);
    r := s.(tasks := PrependBatch(batch, s.tasks));
  }

  /** A batch is seen by the caller's own tenant only: the task view of any
      other tenant is what it was. */
  lemma {:induction false} BatchInvisibleElsewhere(batch: seq<Task>, prev: seq<Task>, org: string, viewer: string)
    requires forall i :: 0 <= i < |batch| ==> batch[i].organizationId == org
    requires viewer != org
    ensures Filter(PrependBatch(batch, prev), (t: Task) => t.organizationId == viewer)
         == Filter(prev, (t: Task) => t.organizationId == viewer)
  {
    var r := PrependBatch(batch, prev);
    var mine := (t: Task) => t.organizationId == viewer;
    assert r == r[..|batch|] + prev;
    FilterConcat(r[..|batch|], prev, mine);
    FilterNone(r[..|batch|], mine);
  }

  // ---------------------------------------------------------------------
  // Life cycle.

  /** `updateTask`: every task with the id of `t` becomes `t`; the others
      and the order are kept. */
  function UpdateTask(s: Store, t: Task): (r: Store)
    ensures r == s.(tasks := r.tasks) && |r.tasks| == |s.tasks|
    ensures forall i :: 0 <= i < |s.tasks| ==>
              r.tasks[i] == if s.tasks[i].id == t.id then t else s.tasks[i]
  {
    s.(tasks := seq(|s.tasks|, i requires 0 <= i < |s.tasks| =>
         if s.tasks[i].id == t.id then t else s.tasks[i]))
  }

  /** Updating with a task's own old record undoes an update, when that task
      is the only one with its id. */
  lemma {:induction false} UpdateRevert(s: Store, k: nat, t: Task)
    requires k < |s.tasks| && t.id == s.tasks[k].id
    requires forall i :: 0 <= i < |s.tasks| && i != k ==> s.tasks[i].id != t.id
    ensures UpdateTask(UpdateTask(s, t), s.tasks[k]) == s
  {
    var r := UpdateTask(UpdateTask(s, t), s.tasks[k]);
    assert r.tasks == s.tasks;
  }

  /** Updating twice with the same record is updating once. */
  lemma {:induction false} UpdateIdempotent(s: Store, t: Task)
    ensures UpdateTask(UpdateTask(s, t), t) == UpdateTask(s, t)
  {
  }

  /** `deleteTask`: removes every task with that id, keeping the others in
      order. */
  function DeleteTask(s: Store, id: string): (r: Store)
    ensures r == s.(tasks := r.tasks)
    ensures Selects(r.tasks, s.tasks, (t: Task) => t.id != id)
  {
    FilterSelects(s.tasks, (t: Task) => t.id != id);
    s.(tasks := Filter(s.tasks, (t: Task) => t.id != id))
  }

  /** Deleting the task just added gives back the store before it. */
  lemma {:induction false} AddThenDelete(s: Store, base: TaskBase, deadline: string, now: string)
    requires s.currentUser.Some?
    ensures DeleteTask(AddTask(s, base, deadline, now), NextId(s.tasks, 0)) == s
  {
    var r := AddTask(s, base, deadline, now);
    var id := NextId(s.tasks, 0);
    var keep := (t: Task) => t.id != id;
    assert r.tasks == [r.tasks[0]] + s.tasks;
    FilterConcat([r.tasks[0]], s.tasks, keep);
    FilterKeepsAll(s.tasks, keep);
  }

  /** One task's toggle: completing stamps `now`, reopening clears the
      completion time. */
  function ToggleOne(t: Task, now: string): (r: Task)
    ensures r.status == Flip(t.status)
    ensures r.completedAt == if t.status == Completed then None else Some(now)
    ensures r == t.(status := r.status, completedAt := r.completedAt)
  {
    if t.status == Completed then t.(status := Pending, completedAt := None)
    else t.(status := Completed, completedAt := Some(now))
  }

  /** Completing and then reopening a pending task without a completion
      time gives the task back exactly. */
  lemma {:induction false} ToggleTwiceRestores(t: Task, a: string, b: string)
    requires t.status == Pending && t.completedAt.None?
    ensures ToggleOne(ToggleOne(t, a), b) == t
  {
  }

  /** From completed, two toggles complete it again, stamped with the second
      reading of the clock. */
  lemma {:induction false} ToggleTwiceFromCompleted(t: Task, a: string, b: string)
    requires t.status == Completed
    ensures ToggleOne(ToggleOne(t, a), b) == t.(completedAt := Some(b))
  {
  }

  /** `toggleTaskStatus`: toggles every task with that id; nothing else
      changes. The optional notes argument of the declared signature is not
      used by the implementation and is not modelled. */
  function ToggleTaskStatus(s: Store, id: string, now: string): (r: Store)
    ensures r == s.(tasks := r.tasks) && |r.tasks| == |s.tasks|
    ensures forall i :: 0 <= i < |s.tasks| ==>
              if s.tasks[i].id == id then r.tasks[i] == ToggleOne(s.tasks[i], now)
              else r.tasks[i] == s.tasks[i]
  {
    s.(tasks := seq(|s.tasks|, i requires 0 <= i < |s.tasks| =>
         if s.tasks[i].id == id then ToggleOne(s.tasks[i], now) else s.tasks[i]))
  }

  /** Toggling a task list twice restores it when every task with that id is
      pending with no completion time. */
  lemma {:induction false} ToggleStoreTwice(s: Store, id: string, a: string, b: string)
    requires forall i :: 0 <= i < |s.tasks| && s.tasks[i].id == id ==>
               s.tasks[i].status == Pending && s.tasks[i].completedAt.None?
    ensures ToggleTaskStatus(ToggleTaskStatus(s, id, a), id, b) == s
  {
    var r := ToggleTaskStatus(ToggleTaskStatus(s, id, a), id, b);
    assert r.tasks == s.tasks;
  }

  /** `updateTaskNotes`: sets the notes of every task with that id. */
  function UpdateTaskNotes(s: Store, id: string, notes: string): (r: Store)
    ensures r == s.(tasks := r.tasks) && |r.tasks| == |s.tasks|
    ensures forall i :: 0 <= i < |s.tasks| ==>
              if s.tasks[i].id == id then r.tasks[i] == s.tasks[i].(notes := Some(notes))
              else r.tasks[i] == s.tasks[i]
  {
    s.(tasks := seq(|s.tasks|, i requires 0 <= i < |s.tasks| =>
         if s.tasks[i].id == id then s.tasks[i].(notes := Some(notes)) else s.tasks[i]))
  }

  /** Of two note edits the last one wins. */
  lemma {:induction false} NotesLastWriteWins(s: Store, id: string, a: string, b: string)
    ensures UpdateTaskNotes(UpdateTaskNotes(s, id, a), id, b) == UpdateTaskNotes(s, id, b)
  {
  }

  /** Notes and status are independent: editing notes and toggling commute. */
  lemma {:induction false} NotesToggleCommute(s: Store, id: string, other: string, notes: string, now: string)
    ensures UpdateTaskNotes(ToggleTaskStatus(s, id, now), other, notes)
         == ToggleTaskStatus(UpdateTaskNotes(s, other, notes), id, now)
  {
  }
}

=== FILE: text.dfy ===
/** String primitives the store relies on: decimal rendering (`String(n)`),
    `padStart`, the leading-digits reading of `parseInt(s, 10)`, ISO calendar
    dates (`toISOString().split('T')[0]`), and the `date + "T" + time`
    deadline text together with its `split('T')` inverse. */
module Text {
  import opened Types

  predicate IsDigit(c: char) {
    '0' <= c <= '9'
  }

  predicate AllDigits(s: string) {
    forall i :: 0 <= i < |s| ==> IsDigit(s[i])
  }

  function DigitChar(n: nat): (c: char)
    requires n < 10
    ensures IsDigit(c)
  {
    (48 + n) as char
  }

  function DigitValue(c: char): (n: nat)
    requires IsDigit(c)
    ensures n < 10 && DigitChar(n) == c
  {
    (c as int) - 48
  }

  /** The numeric value of a string of decimal digits, leading zeros allowed. */
  function DigitsValue(s: string): nat
    requires AllDigits(s)
  {
    if |s| == 0 then 0 else DigitsValue(s[..|s| - 1]) * 10 + DigitValue(s[|s| - 1])
  }

  /** The decimal text of a non-negative integer, without leading zeros. */
  function Decimal(n: nat): (r: string)
    ensures 1 <= |r| && AllDigits(r)
    ensures r[0] == '0' ==> n == 0
  {
    if n < 10 then [DigitChar(n)] else Decimal(n / 10) + [DigitChar(n % 10)]
  }

  /** Reading back what `Decimal` wrote gives the number. */
  lemma {:induction false} DecimalRoundTrip(n: nat)
    ensures DigitsValue(Decimal(n)) == n
  {
    var s := Decimal(n);
    if n < 10 {
      assert s[..|s| - 1] == [];
    } else {
      assert s[..|s| - 1] == Decimal(n / 10);
      DecimalRoundTrip(n / 10);
    }
  }

  /** `Decimal` is injective: distinct numbers render as distinct texts. */
  lemma {:induction false} DecimalInjective(a: nat, b: nat)
    requires Decimal(a) == Decimal(b)
    ensures a == b
  {
    DecimalRoundTrip(a);
    DecimalRoundTrip(b);
  }

  function Repeat(c: char, k: nat): (r: string)
    ensures |r| == k
    ensures forall i :: 0 <= i < k ==> r[i] == c
  {
    if k == 0 then [] else [c] + Repeat(c, k - 1)
  }

  /** `s` left-padded with `c` up to `width` characters; a longer text is
      kept whole, never truncated. */
  function PadStart(s: string, width: nat, c: char): (r: string)
    ensures |r| == if |s| >= width then |s| else width
    ensures r[|r| - |s|..] == s
    ensures forall i :: 0 <= i < |r| - |s| ==> r[i] == c
  {
    if |s| >= width then s else Repeat(c, width - |s|) + s
  }

  /** A leading zero does not change the value of a digit string. */
  lemma {:induction false} LeadingZeroValue(d: string)
    requires AllDigits(d)
    ensures AllDigits(['0'] + d) && DigitsValue(['0'] + d) == DigitsValue(d)
  {
    var z := ['0'] + d;
    if |d| == 0 {
      assert z[..0] == [];
    } else {
      assert z[..|z| - 1] == ['0'] + d[..|d| - 1];
      LeadingZeroValue(d[..|d| - 1]);
    }
  }

  lemma {:induction false} ZeroPaddingValue(k: nat, d: string)
    requires AllDigits(d)
    ensures AllDigits(Repeat('0', k) + d)
    ensures DigitsValue(Repeat('0', k) + d) == DigitsValue(d)
  {
    if k == 0 {
      assert Repeat('0', k) + d == d;
    } else {
      ZeroPaddingValue(k - 1, d);
      assert Repeat('0', k) + d == ['0'] + (Repeat('0', k - 1) + d);
      LeadingZeroValue(Repeat('0', k - 1) + d);
    }
  }

  /** The longest prefix of `s` made of decimal digits. */
  function LeadingDigits(s: string): (r: string)
    ensures AllDigits(r) && r <= s
    ensures |r| < |s| ==> !IsDigit(s[|r|])
    ensures AllDigits(s) ==> r == s
  {
    if |s| == 0 || !IsDigit(s[0]) then [] else [s[0]] + LeadingDigits(s[1..])
  }

  /** How an id text is read as a number: the value of its leading decimal
      digits, or `None` (not a number) when it does not start with one. */
  function ParseLeadingNat(s: string): (r: Option<nat>)
    ensures r.None? <==> |s| == 0 || !IsDigit(s[0])
    ensures 0 < |s| && AllDigits(s) ==> r == Some(DigitsValue(s))
  {
    var d := LeadingDigits(s);
    if |d| == 0 then None else Some(DigitsValue(d))
  }

  /** Whatever follows the leading digits is ignored: a digit text followed
      by a non-digit reads as the digit text alone. */
  lemma {:induction false} ParseIgnoresTail(d: string, tail: string)
    requires 0 < |d| && AllDigits(d)
    requires |tail| == 0 || !IsDigit(tail[0])
    ensures ParseLeadingNat(d + tail) == Some(DigitsValue(d))
  {
    LeadingDigitsOfPrefix(d, tail);
  }

  lemma {:induction false} LeadingDigitsOfPrefix(d: string, tail: string)
    requires AllDigits(d)
    requires |tail| == 0 || !IsDigit(tail[0])
    ensures LeadingDigits(d + tail) == d
  {
    if |d| == 0 {
      assert d + tail == tail;
    } else {
      assert (d + tail)[1..] == d[1..] + tail;
      LeadingDigitsOfPrefix(d[1..], tail);
    }
  }

  /** Any zero-padded decimal rendering parses back to its number. */
  lemma {:induction false} PaddedDecimalParses(n: nat, width: nat)
    ensures AllDigits(PadStart(Decimal(n), width, '0'))
    ensures ParseLeadingNat(PadStart(Decimal(n), width, '0')) == Some(n)
  {
    var d := Decimal(n);
    var p := PadStart(d, width, '0');
    DecimalRoundTrip(n);
    if |d| >= width {
      assert p == d;
    } else {
      assert p == Repeat('0', width - |d|) + d;
      ZeroPaddingValue(width - |d|, d);
    }
    assert LeadingDigits(p) == p;
  }

  // ---------------------------------------------------------------------
  // Calendar dates. A date is a day number counted from 1970-01-01 (UTC).

  /** Proleptic Gregorian (year, month, day) of a day number (the
      days-to-civil conversion that `Date` performs). */
  function CivilDate(day: int): (int, int, int) {
    var z := day + 719468;
    var era := z / 146097;
    var doe := z - era * 146097;
    var yoe := (doe - doe / 1460 + doe / 36524 - doe / 146096) / 365;
    var doy := doe - (365 * yoe + yoe / 4 - yoe / 100);
    var mp := (5 * doy + 2) / 153;
    var d := doy - (153 * mp + 2) / 5 + 1;
    var m := if mp < 10 then mp + 3 else mp - 9;
    var y := yoe + era * 400;
    (if m <= 2 then y + 1 else y, m, d)
  }

  /** A calendar field rendered with at least `width` digits. The fields
      produced by `CivilDate` are never negative; the sign branch only keeps
      the function total. */
  function FieldText(n: int, width: nat): (r: string)
    ensures 'T' !in r
    ensures |r| >= width
  {
    if n < 0 then "-" + PadStart(Decimal(-n), width, '0') else PadStart(Decimal(n), width, '0')
  }

  /** The year as ISO 8601 writes it: four digits inside 0..9999, otherwise
      a sign and six digits. */
  function YearText(y: int): (r: string)
    ensures 'T' !in r
    ensures |r| >= 4
  {
    if 0 <= y <= 9999 then FieldText(y, 4)
    else if y < 0 then FieldText(y, 6)
    else "+" + FieldText(y, 6)
  }

  /** The date part of the ISO timestamp of the midnight that starts `day`. */
  function DateText(day: int): (r: string)
    ensures 'T' !in r
    ensures |r| >= 10
  {
    CivilText(CivilDate(day))
  }

  /** "YYYY-MM-DD" for a (year, month, day) triple. */
  function CivilText(ymd: (int, int, int)): (r: string)
    ensures 'T' !in r
    ensures |r| >= 10
  {
    YearText(ymd.0) + "-" + FieldText(ymd.1, 2) + "-" + FieldText(ymd.2, 2)
  }

  lemma {:induction false} CivilDateSamples()
    ensures CivilDate(0) == (1970, 1, 1)
    ensures CivilDate(19723) == (2024, 1, 1)
    ensures CivilDate(19725) == (2024, 1, 3)
  {
    CivilDateEpoch();
    CivilDateNewYear2024();
    CivilDateThirdJanuary2024();
  }

  lemma {:induction false} CivilDateEpoch()
    ensures CivilDate(0) == (1970, 1, 1)
  {
    assert 719468 / 146097 == 4;
    assert (135080 - 135080 / 1460 + 135080 / 36524 - 135080 / 146096) / 365 == 369;
  }

  lemma {:induction false} CivilDateNewYear2024()
    ensures CivilDate(19723) == (2024, 1, 1)
  {
    assert 739191 / 146097 == 5;
    assert (8706 - 8706 / 1460 + 8706 / 36524 - 8706 / 146096) / 365 == 23;
  }

  lemma {:induction false} CivilDateThirdJanuary2024()
    ensures CivilDate(19725) == (2024, 1, 3)
  {
    assert 739193 / 146097 == 5;
    assert (8708 - 8708 / 1460 + 8708 / 36524 - 8708 / 146096) / 365 == 23;
  }

  lemma {:induction false} YearTextSamples()
    ensures YearText(1970) == "1970"
    ensures YearText(2024) == "2024"
  {
    assert Decimal(19) == "19";
    assert Decimal(197) == "197";
    assert Decimal(1970) == "1970";
    assert Decimal(20) == "20";
    assert Decimal(202) == "202";
    assert Decimal(2024) == "2024";
  }

  lemma {:induction false} FieldTextSamples()
    ensures FieldText(1, 2) == "01"
    ensures FieldText(3, 2) == "03"
  {
    assert Repeat('0', 1) == "0";
  }

  /** The date text of a day, given its calendar date. */
  lemma {:induction false} DateTextOf(day: int, y: int, m: int, d: int)
    requires CivilDate(day) == (y, m, d)
    ensures DateText(day) == YearText(y) + "-" + FieldText(m, 2) + "-" + FieldText(d, 2)
  {
  }

  // ---------------------------------------------------------------------
  // Deadline texts: `${date}T${time}` and `deadline.split('T')`.

  /** Position of the first `c` in `s`. */
  function IndexOf(s: string, c: char): (r: Option<nat>)
    ensures r.None? <==> c !in s
    ensures r.Some? ==> r.value < |s| && s[r.value] == c && c !in s[..r.value]
  {
    if |s| == 0 then None
    else if s[0] == c then Some(0)
    else match IndexOf(s[1..], c)
      case None => None
      case Some(i) => assert s[..i + 1] == [s[0]] + s[1..][..i]; Some(i + 1)
  }

  /** The text written into a task's deadline from a date and a time of day. */
  function Stamp(date: string, time: string): (r: string)
    ensures |r| == |date| + 1 + |time|
    ensures r[..|date|] == date && r[|date|] == 'T' && r[|date| + 1..] == time
  {
    date + "T" + time
  }

  /** A deadline split at 'T' into its first two pieces: the text before the
      first 'T', and the text between the first and the second 'T' (to the
      end when there is no second one). With no 'T' at all, the time is
      missing (`None`). */
  function SplitAtT(s: string): (r: (string, Option<string>))
    ensures 'T' !in r.0 && (r.1.Some? ==> 'T' !in r.1.value)
    ensures r.1.None? <==> 'T' !in s
    ensures r.1.None? ==> r.0 == s
    ensures r.1.Some? ==>
              var d, t := |r.0|, |r.1.value|;
              d + 1 + t <= |s| && s[..d] == r.0 && s[d] == 'T' && s[d + 1..d + 1 + t] == r.1.value &&
              (d + 1 + t == |s| || s[d + 1 + t] == 'T')
  {
    match IndexOf(s, 'T')
    case None => (s, None)
    case Some(i) =>
      var rest := s[i + 1..];
      match IndexOf(rest, 'T')
      case None => (s[..i], Some(rest))
      case Some(j) => (s[..i], Some(rest[..j]))
  }

  /** Splitting a stamped deadline gives back the date and the time, as long
      as neither of them contains a 'T'. */
  lemma {:induction false} SplitStamp(date: string, time: string)
    requires 'T' !in date && 'T' !in time
    ensures SplitAtT(Stamp(date, time)) == (date, Some(time))
  {
    var s := Stamp(date, time);
    assert s[|date|] == 'T';
    assert s[..|date|] == date;
    assert s[|date| + 1..] == time;
  }

  /** Conversely, a deadline with exactly one 'T' is re-assembled from its two
      halves. */
  lemma {:induction false} StampSplit(s: string, i: nat)
    requires i < |s| && s[i] == 'T'
    requires 'T' !in s[..i] && 'T' !in s[i + 1..]
    ensures SplitAtT(s).1.Some?
    ensures Stamp(SplitAtT(s).0, SplitAtT(s).1.value) == s
  {
    assert s == s[..i] + "T" + s[i + 1..];
  }
}

=== FILE: theme.dfy ===
/** The display settings: the Christmas theme switch, the theme mode it
    gates, and dark mode. The safety effect reverts the Christmas mode as
    soon as the switch is off; the mode toggle refuses to enter it while the
    switch is off. */
module Theme {
  import opened Types
  import opened DataStore

  /** The state the safety effect rules out: Christmas mode while the switch
      is off. */
  predicate ThemeSafe(st: Settings) {
    st.christmasEnabled || st.themeMode == Normal
  }

  function OtherMode(m: ThemeMode): (r: ThemeMode)
    ensures r != m
  {
    if m == Normal then Christmas else Normal
  }

  /** The "revert theme safety" effect. */
  function ThemeSafety(st: Settings): (r: Settings)
    ensures ThemeSafe(r)
    ensures ThemeSafe(st) ==> r == st
    ensures r == st.(themeMode := r.themeMode)
  {
    if !st.christmasEnabled && st.themeMode == Christmas then st.(themeMode := Normal) else st
  }

  /** `toggleThemeMode`: a no-op when the switch is off and the mode is
      normal; otherwise the mode flips. */
  function ToggleThemeMode(st: Settings): (r: Settings)
    ensures !st.christmasEnabled && st.themeMode == Normal ==> r == st
    ensures st.christmasEnabled || st.themeMode == Christmas ==> r == st.(themeMode := OtherMode(st.themeMode))
  {
    if !st.christmasEnabled && st.themeMode == Normal then st
    else st.(themeMode := if st.themeMode == Normal then Christmas else Normal)
  }

  /** Switching the Christmas theme on or off. */
  function SetChristmasEnabled(st: Settings, enabled: bool): (r: Settings)
    ensures r.christmasEnabled == enabled
    ensures r == st.(christmasEnabled := r.christmasEnabled)
  {
    st.(christmasEnabled := enabled)
  }

  /** Flipping dark mode. */
  function ToggleDarkMode(st: Settings): (r: Settings)
    ensures r.darkMode != st.darkMode
    ensures r == st.(darkMode := r.darkMode)
  {
    st.(darkMode := !st.darkMode)
  }

  /** The toggle never leaves a safe state. */
  lemma {:induction false} ToggleKeepsSafe(st: Settings)
    requires ThemeSafe(st)
    ensures ThemeSafe(ToggleThemeMode(st))
  {
  }

  /** With the switch on, toggling twice gives the mode back. */
  lemma {:induction false} ToggleInvolution(st: Settings)
    requires st.christmasEnabled
    ensures ToggleThemeMode(ToggleThemeMode(st)) == st
  {
  }

  /** Turning the switch off, followed by the safety effect, always ends in
      the normal mode, whatever the mode was. */
  lemma {:induction false} DisableReverts(st: Settings)
    ensures ThemeSafety(SetChristmasEnabled(st, false)).themeMode == Normal
    ensures ThemeSafety(SetChristmasEnabled(st, false)).christmasEnabled == false
  {
  }

  /** Every settings change followed by the safety effect ends safe, and
      the toggle of a safe state needs no correction. */
  lemma {:induction false} SafetyAfterEveryChange(st: Settings, enabled: bool)
    ensures ThemeSafe(ThemeSafety(SetChristmasEnabled(st, enabled)))
    ensures ThemeSafe(ThemeSafety(ToggleDarkMode(st)))
    ensures ThemeSafe(st) ==> ThemeSafety(ToggleThemeMode(st)) == ToggleThemeMode(st)
  {
  }

  /** Dark mode toggles independently of the theme. */
  lemma {:induction false} DarkModeInvolution(st: Settings)
    ensures ToggleDarkMode(ToggleDarkMode(st)) == st
    ensures ToggleDarkMode(st).themeMode == st.themeMode
  {
  }
}

=== FILE: types.dfy ===
/** The records and enumerations every part of the task manager shares:
    tenants (organizations), users with roles, tasks and task templates. */
module Types {

  /** A value that may be absent (`field?: T` / `T | null`). */
  datatype Option<T> = None | Some(value: T)

  datatype Role = SuperAdmin | Admin | Analyst

  datatype Priority = Critical | High | Medium | Low

  datatype TaskStatus = Pending | Completed

  /** Visual theme; only the two declared modes exist. */
  datatype ThemeMode = Normal | Christmas

  /** A tenant. */
  datatype Organization = Organization(
    id: string,
    name: string,
    createdAt: string,
    isActive: bool)

  /** A user; the super-admin carries the sentinel organization id "system". */
  datatype User = User(
    id: string,
    organizationId: string,
    username: string,
    fullName: string,
    role: Role,
    password: Option<string>)

  /** One checklist task. `deadline`, `createdAt` and `completedAt` are ISO
      date-time texts. */
  datatype Task = Task(
    id: string,
    organizationId: string,
    title: string,
    description: string,
    category: string,
    priority: Priority,
    assignedTo: string,
    deadline: string,
    status: TaskStatus,
    notes: Option<string>,
    completedAt: Option<string>,
    createdAt: string)

  /** The caller-supplied part of a new task (`Omit<Task, 'id' | 'createdAt' |
      'status' | 'deadline' | 'organizationId'>`); the store adds the rest. */
  datatype TaskBase = TaskBase(
    title: string,
    description: string,
    category: string,
    priority: Priority,
    assignedTo: string,
    notes: Option<string>,
    completedAt: Option<string>)

  /** `t` carries every field of `base` unchanged. */
  predicate CarriesBase(t: Task, base: TaskBase) {
    && t.title == base.title
    && t.description == base.description
    && t.category == base.category
    && t.priority == base.priority
    && t.assignedTo == base.assignedTo
    && t.notes == base.notes
    && t.completedAt == base.completedAt
  }

  /** One blueprint of a template; `timeOffset` is a time of day ("09:00"),
      not a duration. */
  datatype TemplateItem = TemplateItem(
    title: string,
    description: string,
    category: string,
    priority: Priority,
    timeOffset: string)

  datatype TaskTemplate = TaskTemplate(
    id: string,
    organizationId: string,
    name: string,
    items: seq<TemplateItem>)

  /** The string value each enumeration member carries. */
  function RoleName(r: Role): string {
    match r
    case SuperAdmin => "SUPER_ADMIN"
    case Admin => "ADMIN"
    case Analyst => "ANALYST"
  }

  function PriorityName(p: Priority): string {
    match p
    case Critical => "CRITICAL"
    case High => "HIGH"
    case Medium => "MEDIUM"
    case Low => "LOW"
  }

  function StatusName(s: TaskStatus): string {
    match s
    case Pending => "PENDING"
    case Completed => "COMPLETED"
  }

  function ThemeName(m: ThemeMode): string {
    match m
    case Normal => "normal"
    case Christmas => "christmas"
  }

  /** Every role, in declaration order. */
  function AllRoles(): (r: seq<Role>)
    ensures |r| == 3
    ensures forall x: Role :: x in r
    ensures forall i, j :: 0 <= i < j < |r| ==> RoleName(r[i]) != RoleName(r[j])
  {
    var r := [SuperAdmin, Admin, Analyst];
    assert forall x: Role :: x in r by {
      forall x: Role ensures x in r {
        if x.SuperAdmin? { assert r[0] == x; }
        else if x.Admin? { assert r[1] == x; }
        else { assert r[2] == x; }
      }
    }
    r
  }

  /** Every priority, in declaration order: the choices offered by the
      priority selectors of the admin forms. */
  function AllPriorities(): (r: seq<Priority>)
    ensures |r| == 4
    ensures forall x: Priority :: x in r
    ensures forall i, j :: 0 <= i < j < |r| ==> PriorityName(r[i]) != PriorityName(r[j])
  {
    var r := [Critical, High, Medium, Low];
    assert forall x: Priority :: x in r by {
      forall x: Priority ensures x in r {
        if x.Critical? { assert r[0] == x; }
        else if x.High? { assert r[1] == x; }
        else if x.Medium? { assert r[2] == x; }
        else { assert r[3] == x; }
      }
    }
    r
  }

  /** Every status, in declaration order. */
  function AllStatuses(): (r: seq<TaskStatus>)
    ensures |r| == 2
    ensures forall x: TaskStatus :: x in r
    ensures StatusName(r[0]) != StatusName(r[1])
  {
    var r := [Pending, Completed];
    assert forall x: TaskStatus :: x in r by {
      forall x: TaskStatus ensures x in r {
        if x == Pending { assert r[0] == x; } else { assert r[1] == x; }
      }
    }
    r
  }

  /** The status a toggle moves to. */
  function Flip(s: TaskStatus): (r: TaskStatus)
    ensures r != s
  {
    if s == Completed then Pending else Completed
  }

  /** With only two statuses, toggling is a total involution. */
  lemma {:induction false} FlipInvolution(s: TaskStatus)
    ensures Flip(Flip(s)) == s
  {
  }
}

=== FILE: views.dfy ===
/** Tenant isolation: the collections a logged-in user is shown are a pure
    function of the raw store and that user. Admins and analysts see the
    users, tasks and templates of their own organization and no tenant list;
    the super-admin sees every tenant and every user, but no tasks and no
    templates; nobody logged in sees nothing. */
module TenantViews {
  import opened Types
  import opened Seqs
  import opened DataStore

  datatype View = View(
    orgs: seq<Organization>,
    users: seq<User>,
    tasks: seq<Task>,
    templates: seq<TaskTemplate>)

  /** The filtered collections of `filteredUsers`, `filteredTasks`,
      `filteredTemplates` and `filteredOrgs`. */
  function Views(s: Store): (v: View)
    ensures s.currentUser.None? ==> v == View([], [], [], [])
    ensures s.currentUser.Some? && s.currentUser.value.role == SuperAdmin ==>
      v.orgs == s.orgs && v.users == s.users && v.tasks == [] && v.templates == []
    ensures s.currentUser.Some? && s.currentUser.value.role != SuperAdmin ==>
      var org := s.currentUser.value.organizationId;
      && v.orgs == []
      && Selects(v.users, s.users, (u: User) => u.organizationId == org)
      && Selects(v.tasks, s.tasks, (t: Task) => t.organizationId == org)
      && Selects(v.templates, s.templates, (t: TaskTemplate) => t.organizationId == org)
  {
    match s.currentUser
    case None => View([], [], [], [])
    case Some(u) =>
      if u.role == SuperAdmin then View(s.orgs, s.users, [], [])
      else
        var org := u.organizationId;
        FilterSelects(s.users, (x: User) => x.organizationId == org);
        FilterSelects(s.tasks, (t: Task) => t.organizationId == org);
        FilterSelects(s.templates, (t: TaskTemplate) => t.organizationId == org);
        View([],
             Filter(s.users, (x: User) => x.organizationId == org),
             Filter(s.tasks, (t: Task) => t.organizationId == org),
             Filter(s.templates, (t: TaskTemplate) => t.organizationId == org))
  }

  /** Isolation, stated per record: whatever an admin or analyst is shown
      belongs to their own organization, and a record of another organization
      is never shown, whatever the raw store holds. */
  lemma {:induction false} TenantIsolation(s: Store, t: Task, other: string)
    requires s.currentUser.Some? && s.currentUser.value.role != SuperAdmin
    requires other != s.currentUser.value.organizationId
    requires t in s.tasks && t.organizationId == other
    ensures t !in Views(s).tasks
    ensures forall x :: x in Views(s).tasks ==> x.organizationId == s.currentUser.value.organizationId
    ensures forall u :: u in Views(s).users ==> u.organizationId == s.currentUser.value.organizationId
  {
  }

  /** The views read nothing but the collections and the logged-in user:
      the settings never change what anyone sees. */
  lemma {:induction false} ViewsIgnoreSettings(s: Store, settings: Settings)
    ensures Views(s.(settings := settings)) == Views(s)
  {
  }
}
